=== FILE: README.md ===
# Datastore admin: the string-to-typed-value layer

This project models the translation layer of the `db` datastore admin
tool. On the server, `DBResource` turns HTTP parameters into store
queries. It reads ancestor keys with the ad-hoc `Kind(123)` / `Kind("name")`
grammar. It parses filter strings such as `age >= Long(3)`, resolves their
operator and value-kind tag, and decodes their values through
`Row.Value.Type`. It combines the predicates and derives the paging
options. It renders every fetched entity as a row of at most
2048-character strings, tagged with the kind of each value. It deletes
keys in batches of 1000 and counts keys.

The browser client (`db.js`) has three pure helpers in the model. It
escapes HTML. It composes filter strings from the form and parses them
back with the same grammar. It assigns table columns to property names in
first-seen order.

Modules, in dependency order:

- `Base`: `Option`, `Result`, the Java exceptions as an `Error` datatype, and the `int`/`long` bounds.
- `Strings`: the character classes and string operations the code relies on. This covers `trim`, ASCII case folding, `indexOf`/`lastIndexOf`, Guava's `Splitter.on` and decimal parsing.
- `Keys`: the `Key` datatype, the flat grammar of `asKey`, and the recursive slash-separated grammar of the KEY decoder.
- `ValueType`: the 22 tags of `Row.Value.Type`, the classes each tag lists, the `fromClass` table and the per-tag `fromString` decoders.
- `FilterGrammar`: the filter regular expression, which the server and the client share, and the client's composer.
- `Filters`: `toFilterOperator` and `addFilters`.
- `Queries`: `createQuery` and `createFetchOptions`.
- `Rows`: `toRowValue`, the insertion-ordered `Row` map and the row loop of `list`.
- `Bulk`: the batching loop of `delete` and the counting loop of `count`.
- `Client`: `escapeHTML`, the filter composition and parsing, and the column indexing of `refresh`.

Some behaviour follows directly from the code as written, and the model proves it:

- `Type` has no `LONG` constant, so every `Long(...)` filter fails. This holds even on `__key__`, because the tag is resolved before the key override.
- A filter value comes from `[^)]*`, while the KEY decoder demands a trailing `)`. So every `Key(...)` filter fails, and so does every filter on `__key__`.
- The operator group admits only `<>=!`, so the `IN` operator can never be reached from a filter string.
- The client reads each cell under the HTML-escaped property name. A property whose name changes when escaped therefore shows the value stored under the escaped name, which is usually none: its cell is empty unless another property is literally named with the escaped text.

## Model

| member | source | states |
|---|---|---|
| Keys.AsKey | src/main/java/me/lazerka/db/DBResource.java:163-175 | a key `asKey` accepts has no parent and a kind made of word characters |
| Keys.AsKeySound | src/main/java/me/lazerka/db/DBResource.java:163-175 | an accepted input, once trimmed, spells `kind(digits)` with an id of at most 2^63-1, or `kind("name")` with a non-empty quote-free name |
| Keys.AsKeyNumeric | src/main/java/me/lazerka/db/DBResource.java:165-174 | a trimmed `W(D)` whose digits fit in a `long` gives the numeric-id key, because the id pattern is tried first |
| Keys.AsKeyNamed | src/main/java/me/lazerka/db/DBResource.java:167-172 | a trimmed `W("N")` with N non-empty and quote-free gives the named key |
| Keys.AsKeyAccepts | src/main/java/me/lazerka/db/DBResource.java:163-175 | `asKey` yields a key exactly for the two spellings, so nested, empty-kind and other inputs are rejected |
| Keys.AsKeyReadsRender | src/main/java/me/lazerka/db/DBResource.java:163-175 | every parentless key with a word kind is read back from its own spelling |
| Keys.DecodeKey | src/main/java/me/lazerka/db/Row.java:179-196 | the decoded key has a numeric id inside the `long` range and a kind without `/` |
| Keys.DecodeSegment | src/main/java/me/lazerka/db/Row.java:184-191 | `pre/kind(digits)` decodes to that segment under whatever `pre` decodes to |
| Keys.KeyRoundTrip | src/main/java/me/lazerka/db/Row.java:175-197 | decoding the rendering `parent/kind(id)` of a chain with non-empty `/`-free kinds and numeric `long` ids gives the chain back |
| Keys.DecodeKeySpells | src/main/java/me/lazerka/db/Row.java:175-197 | every string the KEY grammar accepts spells the chain it is read as, `parent/kind(digits)` level by level, with every id in the `long` range; only leading zeros can differ from the rendering |
| Keys.SpellsDecode | src/main/java/me/lazerka/db/Row.java:175-197 | every such spelling of a chain whose ids fit in a `long`, leading zeros included, is read as that chain |
| Keys.NamedLeafUnsupported | src/main/java/me/lazerka/db/Row.java:193-194 | a key with a named leaf is rejected as "string key names not supported" |
| Keys.NoParenNoKey | src/main/java/me/lazerka/db/Row.java:180 | a value without `)` never decodes: the empty string fails on `charAt`, any other fails the argument check |
| ValueType.ValueOf | src/main/java/me/lazerka/db/DBResource.java:201 | `Type.valueOf` gives the constant with that name, or fails when no constant has it |
| ValueType.ValueOfName | src/main/java/me/lazerka/db/Row.java:39-223 | `valueOf` of a constant's name is that constant |
| ValueType.NameInjective | src/main/java/me/lazerka/db/Row.java:39-223 | no two constants share a name |
| ValueType.NoLongTag | src/main/java/me/lazerka/db/Row.java:39-223 | there is no constant named `LONG` |
| ValueType.ClassesAgree | src/main/java/me/lazerka/db/Row.java:40-222 | the classes listed under a tag agree with a class-side reading, so no class is listed under two tags |
| ValueType.TableStep | src/main/java/me/lazerka/db/Row.java:228-230 | one tag's puts map its classes to it and leave every other entry alone |
| ValueType.BuildTableSpec | src/main/java/me/lazerka/db/Row.java:225-232 | after the static initialiser, the table maps exactly the classes some tag lists, each to that tag |
| ValueType.FromClassSpec | src/main/java/me/lazerka/db/Row.java:242-244 | `fromClass(c) == t` iff `t` lists `c`; NULL is never the answer; an unlisted class gives null, not an error |
| ValueType.DecodeGeo | src/main/java/me/lazerka/db/Row.java:90-98 | GEO reads its text iff the first comma exists, is neither first nor last, and both halves parse as floats; the halves rejoin to the input |
| ValueType.DecodeUser | src/main/java/me/lazerka/db/Row.java:120-135 | USER succeeds only with 2 to 4 fields; the fields are free of `:` and rejoin with `:` to the input, so they are exactly the colon-separated pieces |
| ValueType.UserColons | src/main/java/me/lazerka/db/Row.java:123-133 | USER succeeds iff the input has one to three colons |
| ValueType.DecodeIMHandle | src/main/java/me/lazerka/db/Row.java:136-155 | IM_HANDLE succeeds iff there are exactly two space-separated fields and the first is a scheme name or a URL; a scheme name wins, otherwise the first field is the URL; the protocol's text, a space and the address rejoin to the input |
| ValueType.IMHandleSpaces | src/main/java/me/lazerka/db/Row.java:139-140 | a decoded IM handle had exactly one space |
| ValueType.DecodeLong | src/main/java/me/lazerka/db/Row.java:40-45 | INTEGER succeeds exactly on signed ASCII decimals in the `long` range, and its value is the one the numeral spells |
| ValueType.DecodeRating | src/main/java/me/lazerka/db/Row.java:168-173 | the parse step of RATING succeeds exactly on signed ASCII decimals in the `int` range, and its value is the one the numeral spells |
| ValueType.DecodeNull | src/main/java/me/lazerka/db/Row.java:210-216 | NULL decodes only the empty string, to null |
| ValueType.Decode | src/main/java/me/lazerka/db/Row.java:40-223 | SHORT_BLOB, BLOB, EMBEDDED_ENTITY and RAW_VALUE fail as unsupported on every input, and no tag but these and KEY ever raises that error; STRING is the identity; BOOLEAN never fails and is true iff the input equals "true" ignoring case; BLOB_KEY accepts anything |
| ValueType.IntegerRoundTrip | src/main/java/me/lazerka/db/Row.java:40-45 | INTEGER reads back every `long` written in decimal |
| ValueType.KeyTagRoundTrip | src/main/java/me/lazerka/db/Row.java:175-197 | KEY reads back every rendered numeric chain |
| Strings.ParseSigned | src/main/java/me/lazerka/db/Row.java:43 | a parsed text is a numeral (ASCII digits, bare or after `+` or `-`, leading zeros allowed) and the result is its value, inside the bounds; every numeral whose value is inside the bounds parses to that value |
| Strings.ParseSignedRoundTrip | src/main/java/me/lazerka/db/Row.java:43 | parsing reads back every in-range number written in decimal |
| Strings.IndexOf | src/main/java/me/lazerka/db/Row.java:93 | the result is the first occurrence, or the length when there is none |
| Strings.LastIndexOf | src/main/java/me/lazerka/db/Row.java:184 | the result is the last occurrence, or -1 when there is none |
| Strings.Split | src/main/java/me/lazerka/db/Row.java:123 | the splitter gives at least one piece, and no piece holds the separator |
| Strings.SplitJoin | src/main/java/me/lazerka/db/Row.java:123 | joining the pieces with the separator gives the input back, so empty pieces are kept |
| Strings.SplitCount | src/main/java/me/lazerka/db/Row.java:139 | there is one more piece than there are separators |
| Strings.TrimNoop | src/main/java/me/lazerka/db/DBResource.java:164 | trimming leaves a string alone when neither end is whitespace |
| Strings.Upper | src/main/java/me/lazerka/db/DBResource.java:201 | upper-casing keeps the length and folds each ASCII letter on its own |
| FilterGrammar.MatchIff | src/main/java/me/lazerka/db/DBResource.java:188-194 | a filter matches with groups `p` iff `p` is well formed and the filter is exactly `field op Type(value)`, so the decomposition is unique |
| FilterGrammar.MatchSound | src/main/java/me/lazerka/db/DBResource.java:188-198 | the groups of any match are well formed and compose back to the filter |
| FilterGrammar.MatchFormed | src/main/java/me/lazerka/db/DBResource.java:189 | the field has no operator character, the operator is a run of them, the type is whitelisted and the value has no `)` |
| FilterGrammar.MatchComposes | src/main/java/me/lazerka/db/DBResource.java:189 | the four groups, re-assembled with spaces and parentheses, are the matched text |
| FilterGrammar.MatchComplete | src/main/webapp/js/db.js:16 | every composition of well-formed parts matches with exactly those parts |
| Filters.ToFilterOperator | src/main/java/me/lazerka/db/DBResource.java:220-227 | the operator found has exactly the given symbol; otherwise the error names the text |
| Filters.OperatorSymbols | src/main/java/me/lazerka/db/DBResource.java:220-227 | exactly the seven operator symbols resolve |
| Filters.GrammarOperator | src/main/java/me/lazerka/db/DBResource.java:189-200 | an operator from the grammar resolves iff it is one of the six comparisons, so `IN` is unreachable |
| Filters.ValueOfTypeName | src/main/java/me/lazerka/db/DBResource.java:201 | of the six type names the grammar admits, all but LONG name a tag |
| Filters.ParsePartsOutcome | src/main/java/me/lazerka/db/DBResource.java:200-209 | well-formed parts resolve iff they are accepted, and then to the field, the operator with that symbol and the decoded value |
| Filters.LongPartsFail | src/main/java/me/lazerka/db/DBResource.java:201 | a `Long` type name always fails |
| Filters.KeyPartsFail | src/main/java/me/lazerka/db/DBResource.java:203-207 | a KEY type, declared or forced by `__key__`, always fails |
| Filters.PlainParts | src/main/java/me/lazerka/db/DBResource.java:201-209 | with an operator that resolves and a field other than `__key__`, String, Boolean and Email filters succeed with their decoded value, and Null filters succeed only with an empty value |
| Filters.ParseFilterOutcome | src/main/java/me/lazerka/db/DBResource.java:188-209 | a filter parses iff it matches the grammar and its parts are accepted; the predicate carries the field, the operator and the decoded value |
| Filters.LongFilterFails | src/main/java/me/lazerka/db/DBResource.java:201-205 | every `Long(...)` filter fails, even on `__key__`, because the tag is resolved before the override |
| Filters.KeyFilterFails | src/main/java/me/lazerka/db/DBResource.java:203-207 | every filter on `__key__` and every `Key(...)` filter fails |
| Filters.ParsePredicates | src/main/java/me/lazerka/db/DBResource.java:187-211 | on success there is one predicate per filter, in order; a failure is the failure of the first filter that fails, every earlier one having parsed |
| Filters.CombineKeepsPredicates | src/main/java/me/lazerka/db/DBResource.java:212-216 | no predicates leave the query unfiltered, one is set directly, and two or more form one AND of all of them in order |
| Filters.AddFilters | src/main/java/me/lazerka/db/DBResource.java:184-218 | the query filter applies exactly the parsed predicates in order; it fails iff some filter fails, and then with the first failing filter's error |
| Queries.CreateQuery | src/main/java/me/lazerka/db/DBResource.java:146-161 | no kind and no ancestor is an error; the kind is set iff given; the ancestor is `asKey` of the parameter iff given; filters are applied in every non-error branch, and once kind and ancestor pass, an error is the first failing filter's |
| Queries.AncestorQuery | src/main/java/me/lazerka/db/DBResource.java:150-152 | an ancestor spelled `Kind(id)` or `Kind("name")` selects exactly that key |
| Queries.CreateFetchOptions | src/main/java/me/lazerka/db/DBResource.java:177-182 | the batch size is the limit below 1000 and a tenth of it from 1000 on, so it is between 1 and the limit whenever the limit is positive |
| Rows.Truncate | src/main/java/me/lazerka/db/DBResource.java:252-254 | the text is a prefix of the rendering of at most 2048 characters, unchanged when already that short |
| Rows.RowValueText | src/main/java/me/lazerka/db/DBResource.java:229-256 | the value text is the rendering cut to 2048 characters, and null renders as `null` with the NULL tag |
| Rows.RowValueTag | src/main/java/me/lazerka/db/DBResource.java:250 | the tag is NULL exactly for null; a date is DATETIME, an embedded entity EMBEDDED_ENTITY, and any other value has the tag listing its class |
| Rows.TagOfSpec | src/main/java/me/lazerka/db/DBResource.java:250 | the same tag facts, independent of how the value is printed |
| Rows.KeyRowValue | src/main/java/me/lazerka/db/DBResource.java:57 | an entity's key is tagged KEY |
| Rows.EmbeddedBodySplits | src/main/java/me/lazerka/db/DBResource.java:237-245 | when no name or value text holds a line break, the embedded rendering splits at line breaks into one `name: value` line per property, in order |
| Rows.Put | src/main/java/me/lazerka/db/Row.java:23 | after `put(n, v)`, `n` holds `v` and every other name holds what it held before |
| Rows.PutShape | src/main/java/me/lazerka/db/Row.java:23 | an existing entry keeps its place, a new name is appended, and names stay distinct |
| Rows.PutAllGet | src/main/java/me/lazerka/db/DBResource.java:56-61 | after a series of puts, each name holds the last value put under it |
| Rows.PutAllFresh | src/main/java/me/lazerka/db/DBResource.java:56-61 | puts of distinct names build a row holding exactly those entries, in order |
| Rows.EntityRow | src/main/java/me/lazerka/db/DBResource.java:56-62 | a row's first entry is `__key__`, and its names are distinct |
| Rows.EntityRowGet | src/main/java/me/lazerka/db/DBResource.java:56-61 | each name of the row holds the last value put under it |
| Rows.EntityRowFresh | src/main/java/me/lazerka/db/DBResource.java:56-61 | with fresh property names, the row is the key entry followed by the properties in iteration order |
| Rows.KeyEntryFirst | src/main/java/me/lazerka/db/DBResource.java:57-60 | the key entry stays first and keeps the key's value unless a property named `__key__` overwrites it in place |
| Rows.ListRows | src/main/java/me/lazerka/db/DBResource.java:55-63 | there is one row per entity, in the order the query yields them |
| Bulk.DeleteInBatches | src/main/java/me/lazerka/db/DBResource.java:125-142 | the batches, concatenated, are the key stream in order; there are n/1000+1 of them; all but the last hold 1000 keys and the last holds n%1000; the result is n |
| Bulk.Count | src/main/java/me/lazerka/db/DBResource.java:98-105 | the count is the number of keys |
| Client.EscapeHtmlEach | src/main/webapp/js/db.js:1-8 | the four global replacements escape each character on its own |
| Client.EscapeHtmlChar | src/main/webapp/js/db.js:3-6 | on one character the passes give its entity, because `&` goes first |
| Client.EscapeHtmlConcat | src/main/webapp/js/db.js:3-6 | escaping distributes over concatenation |
| Client.EscapeHtmlSafe | src/main/webapp/js/db.js:1-8 | the output holds no `<`, `>` or `"` |
| Client.EscapeHtmlIdentity | src/main/webapp/js/db.js:3-6 | a string with none of `&<>"` is left alone |
| Client.EscapeHtmlInverse | src/main/webapp/js/db.js:1-8 | unescaping the four entities gives the input back, so distinct names stay distinct |
| Client.SentPositions | src/main/webapp/js/db.js:42-50 | the sent positions increase and are exactly the positions of rows with a non-empty name and a ticked box |
| Client.SentInputs | src/main/webapp/js/db.js:42-50 | exactly the rows with a non-empty name and a ticked box are sent, in form order and with their repeats: the i-th sent row is the row at the i-th sent position |
| Client.ComposeFilters | src/main/webapp/js/db.js:42-50 | the i-th filter string is composed from the four fields of the i-th sent row |
| Client.ParseFilters | src/main/webapp/js/db.js:14-20 | the filters are read iff every one matches the grammar, each into its own groups; otherwise the error carries the first filter that does not match |
| Client.FilterRoundTrip | src/main/webapp/js/db.js:49 | every sent row whose fields the grammar admits is read back with the same name, operator, type and value |
| Client.FirstSeenMembers | src/main/webapp/js/db.js:86-90 | first-seen order drops repeated names and names inherited from `Object.prototype`, and nothing else |
| Client.AdmitSpec | src/main/webapp/js/db.js:88-90 | an unseen name gets the next index; a name gets a column iff it is not inherited from `Object.prototype`; the index stays a bijection onto its positions and follows first-seen order |
| Client.IndexEntity | src/main/webapp/js/db.js:85-92 | after one entity, every escaped name not inherited from `Object.prototype` has a column and the cell there holds the value under the escaped name; an inherited name has no column, so its value is never shown |
| Client.IndexColumns | src/main/webapp/js/db.js:84-94 | the column indices are exactly 0..k-1 for the k distinct escaped names that are not inherited from `Object.prototype`, in first-seen order; no inherited name has a column; every row places each other value in its name's column |

## Left out

- HTTP plumbing is not modelled: the resource methods, parameter binding and defaults, the JSON output and logging. `list` reads a `filters` parameter where `count` and `delete` read `filter`, and `count`'s `kind` has no default; the model starts from the bound values.
- The datastore is not modelled (`prepare`, iteration, `delete`, the `/kind` metadata query). The query result is an input sequence of entities or keys, and the deletes are an output sequence of batches.
- The Guice, Jersey and Objectify wiring modules are not part of this model.
- Keys.AsKey: the store's own validation when a key is built is not modelled. The program rejects a zero id (`Kind(0)`) and, in the KEY grammar, an empty kind (`(5)`, `P(1)/(5)`); the model accepts them and builds the key as given. `Keys.ValidChain` asks for non-empty kinds but allows zero ids, so `Keys.KeyRoundTrip` and `Keys.SpellsDecode` also cover keys the program would not build.
- Filters.ToFilterOperator: the operator symbols are taken to be `<`, `<=`, `>`, `>=`, `=`, `!=` and `IN`. This is the store library's `toString`, which is not visible here.
- Library parsers are parameters (`Parsers`) that say only whether a text parses. These are `Double.parseDouble`, `Float.parseFloat`, Joda's `DateTime.parse`, `IMHandle.Scheme.valueOf` and `new URL`. Floating-point and date values keep their text.
- The printers are parameters (`Printers`): Joda's ISO printer for dates and `Key.toString`. Every other non-null value carries its own `toString` text.
- The value constructors (User, IMHandle, Rating, Text, Email, BlobKey and the others) are reduced to the fields they are given. Their own checks, such as the range of a rating, are not modelled.
- ValueType.DecodeLong: only ASCII digits are read. `Long.parseLong` also accepts any other Unicode decimal digit, such as Arabic-Indic or full-width digits, through `Character.digit`; the model rejects those texts.
- ValueType.DecodeRating: only ASCII digits are read, for the same reason with `Integer.parseInt`. The `Rating` constructor's own check, which rejects values outside 0 to 100, is not modelled, so the model accepts every `int`.
- ValueType.DecodeGeo: the `GeoPt` constructor's own range check, which rejects a latitude outside -90 to 90 or a longitude outside -180 to 180, is not modelled. The float parsers are parameters that give no value to check, so the model accepts any two parsable halves.
- Strings.Upper: case folding is ASCII only, which assumes a default locale that upper-cases ASCII letters to ASCII. Both regular expressions are ASCII case-insensitive. `toUpperCase` on the type name takes no locale, so under a Turkish or Azeri default locale it turns `String` and `Email` into `STRİNG` and `EMAİL`, `valueOf` throws, and those filters fail; the model (and `Filters.PlainParts`) does not cover that locale.
- Rows.Truncate: lengths count characters, while Java counts UTF-16 code units. The two differ only outside the Basic Multilingual Plane.
- Rows.EntityRow: an entity's properties are a sequence that may repeat a name or use `__key__`, so it covers more than a Java map's key set. Iteration order is an input.
- Client.IndexColumns: the browser's key order for objects, which lists integer-like names first, is not modelled. An entity is a sequence of name and value pairs in iteration order.
- The DOM, jQuery, AJAX, `location.hash`, `localStorage` and alerts in db.js are not modelled, and neither is the HTML the table is built from.
- Queries.CreateFetchOptions: the store library's own checks on the limit and batch size are not modelled. A limit of zero or less is passed on as it is.
- Bulk.DeleteInBatches: the stream holds at most 2^31-1 keys, the largest `int` limit, so the `int` counter never wraps. Wrap-around is not modelled.
- Bulk.Count: the same bound applies, so the counter's wrap-around is not modelled.

=== FILE: base.dfy ===
/** Failure-carrying wrappers and the error outcomes of the translation layer. */
module Base {

  datatype Option<+T> = None | Some(value: T)

  datatype Result<+T, +E> = Ok(value: T) | Err(error: E)

  /** Why an `IllegalArgumentException` was raised. */
  datatype Reason =
    | MissingKindOrAncestor  // neither `kind` nor `ancestor` was given
    | MalformedKey           // the ad-hoc key grammar did not match
    | MalformedFilter        // the filter grammar did not match
    | UnknownOperator        // no comparison operator has this symbol
    | UnknownTag             // no value-kind tag has this name
    | MalformedValue         // a decoder's structural check failed

  /** The Java exception a failing call throws, with the input it names. */
  datatype Error =
    | IllegalArgument(reason: Reason, input: string)
    | NumberFormat(input: string)          // Long.parseLong / Integer.parseInt
    | UnsupportedOperation(input: string)  // kinds that cannot be built from a string
    | IndexOutOfBounds(input: string)      // charAt on an empty string

  /** Bounds of Java's `int` and `long`. */
  const INT32_MIN: int := -0x8000_0000
  const INT32_MAX: int := 0x7FFF_FFFF
  const INT64_MIN: int := -0x8000_0000_0000_0000
  const INT64_MAX: int := 0x7FFF_FFFF_FFFF_FFFF

  type Int32 = x: int | INT32_MIN <= x <= INT32_MAX
}

=== FILE: bulk.dfy ===
/** The loops of `DBResource.delete` and `DBResource.count` over the keys a
    keys-only query yields. The store yields at most `limit` results and
    `limit` is a Java `int`, so the streams here never hold more than
    `INT32_MAX` keys and the `int` counters cannot wrap. */
module Bulk {
  import opened Base
  import opened Keys

  /** Keys are deleted in batches of this size. */
  const BULK_SIZE: nat := 1000

  /** The batches one after another. */
  function Flatten(batches: seq<seq<Key>>): seq<Key> {
    if |batches| == 0 then [] else Flatten(batches[..|batches| - 1]) + batches[|batches| - 1]
  }

  lemma FlattenAppend(batches: seq<seq<Key>>, b: seq<Key>)
    ensures Flatten(batches + [b]) == Flatten(batches) + b
  {
    assert (batches + [b])[..|batches|] == batches;
  }

  /** `delete`: keys are collected into a batch that is deleted as soon as
      it holds 1000 keys; the last batch, possibly empty, is deleted after
      the stream ends. Every key is deleted exactly once, in stream order,
      and the count returned is the number of keys. */
  method DeleteInBatches(stream: seq<Key>) returns (batches: seq<seq<Key>>, deleted: Int32)
    requires |stream| <= INT32_MAX
    ensures Flatten(batches) == stream
    ensures |batches| == |stream| / BULK_SIZE + 1
    ensures forall j | 0 <= j < |batches| - 1 :: |batches[j]| == BULK_SIZE
    ensures |batches[|batches| - 1]| == |stream| % BULK_SIZE
    ensures deleted == |stream|
  {
    batches := [];
    deleted := 0;
    var bulk: seq<Key> := [];
    var i := 0;
    while i < |stream|
      invariant i <= |stream|
      invariant Flatten(batches) + bulk == stream[..i]
      invariant |batches| == i / BULK_SIZE && |bulk| == i % BULK_SIZE
      invariant forall j | 0 <= j < |batches| :: |batches[j]| == BULK_SIZE
      invariant deleted == BULK_SIZE * |batches|
    {
      bulk := bulk + [stream[i]];
      assert Flatten(batches) + bulk == stream[..i + 1] by {
        assert stream[..i + 1] == stream[..i] + [stream[i]];
      }
      if |bulk| == BULK_SIZE {
        FlattenAppend(batches, bulk);
        batches := batches + [bulk];
        deleted := deleted + |bulk|;
        bulk := [];
      }
      i := i + 1;
    }
    FlattenAppend(batches, bulk);
    batches := batches + [bulk];
    deleted := deleted + |bulk|;
    assert stream[..i] == stream;
  }

  /** `count`: the counter advances once per key. */
  method Count(stream: seq<Key>) returns (count: Int32)
    requires |stream| <= INT32_MAX
    ensures count == |stream|
  {
    count := 0;
    var rest := stream;
    while |rest| > 0
      invariant count + |rest| == |stream|
    {
      rest := rest[1..];
      count := count + 1;
    }
  }
}

=== FILE: client.dfy ===
/** The pure helpers of the browser client (db.js): HTML escaping, the
    composition of filter strings from the filter inputs and their parsing
    back into inputs, and the assignment of table column indices. */
module Client {
  import opened Base
  import opened Strings
  import opened FilterGrammar

  // ---------------------------------------------------------------------
  // escapeHTML

  /** `s.replace(/c/g, rep)` for a single-character pattern. */
  function ReplaceAll(s: string, c: char, rep: string): string {
    if |s| == 0 then ""
    else (if s[0] == c then rep else [s[0]]) + ReplaceAll(s[1..], c, rep)
  }

  lemma {:induction false} ReplaceAllConcat(a: string, b: string, c: char, rep: string)
    ensures ReplaceAll(a + b, c, rep) == ReplaceAll(a, c, rep) + ReplaceAll(b, c, rep)
  {
    if |a| == 0 {
      assert a + b == b;
    } else {
      assert (a + b)[0] == a[0];
      assert (a + b)[1..] == a[1..] + b;
      ReplaceAllConcat(a[1..], b, c, rep);
    }
  }

  lemma {:induction false} ReplaceAllAbsent(s: string, c: char, rep: string)
    requires forall i | 0 <= i < |s| :: s[i] != c
    ensures ReplaceAll(s, c, rep) == s
  {
    if |s| > 0 {
      ReplaceAllAbsent(s[1..], c, rep);
    }
  }

  /** `String.prototype.escapeHTML`: four global replacements, `&` first. */
  function EscapeHtml(s: string): string {
    ReplaceAll(ReplaceAll(ReplaceAll(ReplaceAll(s, '&', "&amp;"), '>', "&gt;"), '<', "&lt;"), '"', "&quot;")
  }

  /** The entity each character stands for. */
  function EscapeChar(c: char): string {
    if c == '&' then "&amp;"
    else if c == '>' then "&gt;"
    else if c == '<' then "&lt;"
    else if c == '"' then "&quot;"
    else [c]
  }

  /** Character-by-character escaping, the reference the passes agree with. */
  function EscapeEach(s: string): string {
    if |s| == 0 then "" else EscapeChar(s[0]) + EscapeEach(s[1..])
  }

  /** Escaping distributes over concatenation. */
  lemma EscapeHtmlConcat(a: string, b: string)
    ensures EscapeHtml(a + b) == EscapeHtml(a) + EscapeHtml(b)
  {
    var a1 := ReplaceAll(a, '&', "&amp;");
    var b1 := ReplaceAll(b, '&', "&amp;");
    ReplaceAllConcat(a, b, '&', "&amp;");
    var a2 := ReplaceAll(a1, '>', "&gt;");
    var b2 := ReplaceAll(b1, '>', "&gt;");
    ReplaceAllConcat(a1, b1, '>', "&gt;");
    var a3 := ReplaceAll(a2, '<', "&lt;");
    var b3 := ReplaceAll(b2, '<', "&lt;");
    ReplaceAllConcat(a2, b2, '<', "&lt;");
    ReplaceAllConcat(a3, b3, '"', "&quot;");
  }

  lemma ReplaceOne(x: char, c: char, rep: string)
    ensures ReplaceAll([x], c, rep) == if x == c then rep else [x]
  {
    assert [x][1..] == [];
  }

  /** On one character the four passes give that character's entity:
      `&` goes first, so no entity a later pass writes is escaped again. */
  lemma EscapeHtmlChar(c: char)
    ensures EscapeHtml([c]) == EscapeChar(c)
  {
    if c == '&' {
      EscapeAmpChar(c);
    } else if c == '>' {
      EscapeGtChar(c);
    } else if c == '<' {
      EscapeLtChar(c);
    } else if c == '"' {
      EscapeQuotChar(c);
    } else {
      EscapePlainChar(c);
    }
  }

  lemma EscapeAmpChar(c: char)
    requires c == '&'
    ensures EscapeHtml([c]) == EscapeChar(c)
  {
    ReplaceOne(c, '&', "&amp;");
    LaterPassesKeep(ReplaceAll([c], '&', "&amp;"));
  }

  /** The passes after the first leave `&amp;` alone. */
  lemma LaterPassesKeep(x: string)
    requires x == "&amp;"
    ensures ReplaceAll(ReplaceAll(ReplaceAll(x, '>', "&gt;"), '<', "&lt;"), '"', "&quot;") == x
  {
    ReplaceAllAbsent(x, '>', "&gt;");
    ReplaceAllAbsent(x, '<', "&lt;");
    ReplaceAllAbsent(x, '"', "&quot;");
  }

  lemma EscapeGtChar(c: char)
    requires c == '>'
    ensures EscapeHtml([c]) == EscapeChar(c)
  {
    ReplaceOne(c, '&', "&amp;");
    ReplaceOne(c, '>', "&gt;");
    ReplaceAllAbsent(EscapeChar(c), '<', "&lt;");
    ReplaceAllAbsent(EscapeChar(c), '"', "&quot;");
  }

  lemma EscapeLtChar(c: char)
    requires c == '<'
    ensures EscapeHtml([c]) == EscapeChar(c)
  {
    ReplaceOne(c, '&', "&amp;");
    ReplaceOne(c, '>', "&gt;");
    ReplaceOne(c, '<', "&lt;");
    ReplaceAllAbsent(EscapeChar(c), '"', "&quot;");
  }

  lemma EscapeQuotChar(c: char)
    requires c == '"'
    ensures EscapeHtml([c]) == EscapeChar(c)
  {
    ReplaceOne(c, '&', "&amp;");
    ReplaceOne(c, '>', "&gt;");
    ReplaceOne(c, '<', "&lt;");
    ReplaceOne(c, '"', "&quot;");
  }

  lemma EscapePlainChar(c: char)
    requires !IsSpecial(c)
    ensures EscapeHtml([c]) == [c]
  {
    ReplaceOne(c, '&', "&amp;");
    ReplaceOne(c, '>', "&gt;");
    ReplaceOne(c, '<', "&lt;");
    ReplaceOne(c, '"', "&quot;");
  }

  /** The four passes escape each character independently. */
  lemma {:induction false} EscapeHtmlEach(s: string)
    ensures EscapeHtml(s) == EscapeEach(s)
  {
    if |s| == 0 {
    } else {
      assert s == [s[0]] + s[1..];
      EscapeHtmlConcat([s[0]], s[1..]);
      EscapeHtmlChar(s[0]);
      EscapeHtmlEach(s[1..]);
    }
  }

  /** No markup delimiter survives escaping. */
  lemma {:induction false} EscapeEachSafe(s: string)
    ensures forall i | 0 <= i < |EscapeEach(s)| ::
      EscapeEach(s)[i] != '<' && EscapeEach(s)[i] != '>' && EscapeEach(s)[i] != '"'
  {
    if |s| > 0 {
      EscapeEachSafe(s[1..]);
      var h := EscapeChar(s[0]);
      var t := EscapeEach(s[1..]);
      forall i | 0 <= i < |h + t|
        ensures (h + t)[i] != '<' && (h + t)[i] != '>' && (h + t)[i] != '"'
      {
        if i >= |h| {
          assert (h + t)[i] == t[i - |h|];
        }
      }
    }
  }

  /** The output of `escapeHTML` holds no `<`, `>` or `"`. */
  lemma EscapeHtmlSafe(s: string)
    ensures forall i | 0 <= i < |EscapeHtml(s)| ::
      EscapeHtml(s)[i] != '<' && EscapeHtml(s)[i] != '>' && EscapeHtml(s)[i] != '"'
  {
    EscapeHtmlEach(s);
    EscapeEachSafe(s);
  }

  predicate IsSpecial(c: char) { c == '&' || c == '<' || c == '>' || c == '"' }

  /** A string with nothing to escape is left alone. */
  lemma EscapeHtmlIdentity(s: string)
    requires forall i | 0 <= i < |s| :: !IsSpecial(s[i])
    ensures EscapeHtml(s) == s
  {
    ReplaceAllAbsent(s, '&', "&amp;");
    ReplaceAllAbsent(s, '>', "&gt;");
    ReplaceAllAbsent(s, '<', "&lt;");
    ReplaceAllAbsent(s, '"', "&quot;");
  }

  /** Reading the four entities back, left to right. */
  function Unescape(s: string): string {
    if |s| == 0 then ""
    else if |s| >= 5 && s[..5] == "&amp;" then "&" + Unescape(s[5..])
    else if |s| >= 4 && s[..4] == "&gt;" then ">" + Unescape(s[4..])
    else if |s| >= 4 && s[..4] == "&lt;" then "<" + Unescape(s[4..])
    else if |s| >= 6 && s[..6] == "&quot;" then "\"" + Unescape(s[6..])
    else [s[0]] + Unescape(s[1..])
  }

  lemma UnescapeStep(c: char, t: string)
    ensures Unescape(EscapeChar(c) + t) == [c] + Unescape(t)
  {
    if c == '&' {
      UnescapeAmp(t);
    } else if c == '>' {
      UnescapeGt(t);
    } else if c == '<' {
      UnescapeLt(t);
    } else if c == '"' {
      UnescapeQuot(t);
    } else {
      UnescapePlain(c, t);
    }
  }

  lemma UnescapeAmp(t: string)
    ensures Unescape("&amp;" + t) == "&" + Unescape(t)
  {
    var s := "&amp;" + t;
    assert s[..5] == "&amp;" && s[5..] == t;
  }

  lemma UnescapeGt(t: string)
    ensures Unescape("&gt;" + t) == ">" + Unescape(t)
  {
    var s := "&gt;" + t;
    assert s[1] == 'g';
    assert |s| >= 5 ==> s[..5][1] == 'g';
    assert s[..4] == "&gt;" && s[4..] == t;
  }

  lemma UnescapeLt(t: string)
    ensures Unescape("&lt;" + t) == "<" + Unescape(t)
  {
    var s := "&lt;" + t;
    assert s[1] == 'l';
    assert |s| >= 5 ==> s[..5][1] == 'l';
    assert s[..4][1] == 'l';
    assert s[..4] == "&lt;" && s[4..] == t;
  }

  lemma UnescapeQuot(t: string)
    ensures Unescape("&quot;" + t) == "\"" + Unescape(t)
  {
    var s := "&quot;" + t;
    assert s[1] == 'q';
    assert s[..5][1] == 'q';
    assert s[..4][1] == 'q';
    assert s[..6] == "&quot;" && s[6..] == t;
  }

  lemma UnescapePlain(c: char, t: string)
    requires !IsSpecial(c)
    ensures Unescape([c] + t) == [c] + Unescape(t)
  {
    var s := [c] + t;
    assert s[0] == c;
    assert |s| >= 4 ==> s[..4][0] == c;
    assert |s| >= 5 ==> s[..5][0] == c;
    assert |s| >= 6 ==> s[..6][0] == c;
    assert s[1..] == t;
  }

  /** Escaping loses nothing: unescaping gives the input back, so distinct
      names stay distinct after escaping. */
  lemma {:induction false} EscapeHtmlInverse(s: string)
    ensures Unescape(EscapeHtml(s)) == s
    decreases |s|
  {
    EscapeHtmlEach(s);
    if |s| > 0 {
      UnescapeStep(s[0], EscapeEach(s[1..]));
      EscapeHtmlInverse(s[1..]);
      EscapeHtmlEach(s[1..]);
    }
  }

  // ---------------------------------------------------------------------
  // Filter strings: composed in getValidatedQuery, parsed in fillFields

  /** One filter row of the form. */
  datatype FilterInput = FilterInput(name: string, operator: string, value: string, typeName: string, active: bool)

  /** A row is sent only with a non-empty name and a ticked box. */
  predicate Sent(f: FilterInput) {
    f.name != "" && f.active
  }

  function PartsOf(f: FilterInput): Parts {
    Parts(f.name, f.operator, f.typeName, f.value)
  }

  /** Every index of `s`, one higher. */
  function Shift(s: seq<nat>): (r: seq<nat>)
    ensures |r| == |s| && forall i | 0 <= i < |s| :: r[i] == s[i] + 1
  {
    seq(|s|, i requires 0 <= i < |s| => s[i] + 1)
  }

  /** The form positions of the rows that are sent: increasing, and
      exactly the positions whose row is sent. */
  function SentPositions(inputs: seq<FilterInput>): (idx: seq<nat>)
    ensures forall i | 0 <= i < |idx| :: idx[i] < |inputs| && Sent(inputs[idx[i]])
    ensures forall i, j | 0 <= i < j < |idx| :: idx[i] < idx[j]
    ensures forall k | 0 <= k < |inputs| && Sent(inputs[k]) :: k in idx
  {
    if |inputs| == 0 then []
    else
      var rest := SentPositions(inputs[1..]);
      var head: seq<nat> := if Sent(inputs[0]) then [0] else [];
      var idx := head + Shift(rest);
      ShiftedSent(inputs, rest, head, idx);
      ShiftedIncreasing(rest, head, idx);
      ShiftedComplete(inputs, rest, head, idx);
      idx
  }

  /** The tail's positions, shifted past the head, are sent positions. */
  lemma ShiftedSent(inputs: seq<FilterInput>, rest: seq<nat>, head: seq<nat>, idx: seq<nat>)
    requires |inputs| > 0 && head == (if Sent(inputs[0]) then [0] else []) && idx == head + Shift(rest)
    requires forall i | 0 <= i < |rest| :: rest[i] < |inputs[1..]| && Sent(inputs[1..][rest[i]])
    ensures forall i | 0 <= i < |idx| :: idx[i] < |inputs| && Sent(inputs[idx[i]])
  {
    forall i | 0 <= i < |idx|
      ensures idx[i] < |inputs| && Sent(inputs[idx[i]])
    {
      if i >= |head| {
        assert idx[i] == rest[i - |head|] + 1;
        assert inputs[1..][rest[i - |head|]] == inputs[idx[i]];
      }
    }
  }

  /** Shifting keeps the tail's positions increasing, and all of them lie
      past the head's position 0. */
  lemma ShiftedIncreasing(rest: seq<nat>, head: seq<nat>, idx: seq<nat>)
    requires head == [] || head == [0]
    requires idx == head + Shift(rest)
    requires forall i, j | 0 <= i < j < |rest| :: rest[i] < rest[j]
    ensures forall i, j | 0 <= i < j < |idx| :: idx[i] < idx[j]
  {
    forall i, j | 0 <= i < j < |idx|
      ensures idx[i] < idx[j]
    {
      if i >= |head| {
        assert idx[i] == rest[i - |head|] + 1 && idx[j] == rest[j - |head|] + 1;
      }
    }
  }

  /** Every sent position of the tail, shifted, is among the positions. */
  lemma ShiftedComplete(inputs: seq<FilterInput>, rest: seq<nat>, head: seq<nat>, idx: seq<nat>)
    requires |inputs| > 0 && head == (if Sent(inputs[0]) then [0] else []) && idx == head + Shift(rest)
    requires forall k | 0 <= k < |inputs[1..]| && Sent(inputs[1..][k]) :: k in rest
    ensures forall k | 0 <= k < |inputs| && Sent(inputs[k]) :: k in idx
  {
    forall k | 1 <= k < |inputs| && Sent(inputs[k])
      ensures k in idx
    {
      assert inputs[1..][k - 1] == inputs[k];
      var m :| 0 <= m < |rest| && rest[m] == k - 1;
      assert idx[|head| + m] == k;
    }
  }

  /** The rows that are sent, in form order: the i-th of them is the row at
      the i-th sent position, so order and repeats are those of the form. */
  function SentInputs(inputs: seq<FilterInput>): (r: seq<FilterInput>)
    ensures forall i | 0 <= i < |r| :: Sent(r[i]) && r[i] in inputs
    ensures forall f | f in inputs && Sent(f) :: f in r
    ensures |r| == |SentPositions(inputs)|
    ensures forall i | 0 <= i < |r| :: r[i] == inputs[SentPositions(inputs)[i]]
  {
    if |inputs| == 0 then []
    else
      var rest := SentInputs(inputs[1..]);
      var x := if Sent(inputs[0]) then [inputs[0]] else [];
      var head: seq<nat> := if Sent(inputs[0]) then [0] else [];
      var idx := SentPositions(inputs);
      assert idx == head + Shift(SentPositions(inputs[1..]));
      SentInputsStep(inputs, x, rest, head, SentPositions(inputs[1..]), idx);
      SentInputsMembers(inputs, x, rest);
      x + rest
  }

  /** One step of `SentInputs`: the rows at the tail's positions, behind the
      head row if its position 0 is kept, are the rows at the kept
      positions of the whole form. */
  lemma SentInputsStep<T>(inputs: seq<T>, x: seq<T>, rest: seq<T>, head: seq<nat>, pos: seq<nat>, idx: seq<nat>)
    requires |inputs| > 0
    requires (head == [0] && x == [inputs[0]]) || (head == [] && x == [])
    requires |rest| == |pos| && forall i | 0 <= i < |rest| :: pos[i] < |inputs| - 1 && rest[i] == inputs[1..][pos[i]]
    requires idx == head + Shift(pos)
    ensures |x + rest| == |idx|
    ensures forall i | 0 <= i < |x + rest| :: idx[i] < |inputs| && (x + rest)[i] == inputs[idx[i]]
  {
    forall i | |head| <= i < |x + rest|
      ensures idx[i] < |inputs| && (x + rest)[i] == inputs[idx[i]]
    {
      assert (x + rest)[i] == rest[i - |head|];
      assert idx[i] == pos[i - |head|] + 1;
    }
  }

  /** One step of `SentInputs` keeps exactly the sent rows as members. */
  lemma SentInputsMembers(inputs: seq<FilterInput>, x: seq<FilterInput>, rest: seq<FilterInput>)
    requires |inputs| > 0 && x == (if Sent(inputs[0]) then [inputs[0]] else [])
    requires forall i | 0 <= i < |rest| :: Sent(rest[i]) && rest[i] in inputs[1..]
    requires forall f | f in inputs[1..] && Sent(f) :: f in rest
    ensures forall i | 0 <= i < |x + rest| :: Sent((x + rest)[i]) && (x + rest)[i] in inputs
    ensures forall f | f in inputs && Sent(f) :: f in x + rest
  {
    forall f | f in inputs && Sent(f)
      ensures f in x + rest
    {
      if f != inputs[0] {
        var k :| 0 <= k < |inputs| && inputs[k] == f;
        assert inputs[1..][k - 1] == f;
      }
    }
  }

  /** The composed filter strings of `getValidatedQuery`: one per sent row,
      in form order. */
  function ComposeFilters(inputs: seq<FilterInput>): (r: seq<string>)
    ensures |r| == |SentInputs(inputs)|
    ensures forall i | 0 <= i < |r| :: r[i] == Compose(PartsOf(SentInputs(inputs)[i]))
  {
    if |inputs| == 0 then []
    else
      var c := if Sent(inputs[0]) then [Compose(PartsOf(inputs[0]))] else [];
      var x := if Sent(inputs[0]) then [inputs[0]] else [];
      var rest := ComposeFilters(inputs[1..]);
      assert SentInputs(inputs) == x + SentInputs(inputs[1..]);
      ComposeStep(c, rest, x, SentInputs(inputs[1..]));
      c + rest
  }

  /** One step of `ComposeFilters`: composing the head row, if sent, in
      front of the tail's strings lines up with the sent rows. */
  lemma ComposeStep(c: seq<string>, rest: seq<string>, x: seq<FilterInput>, sent: seq<FilterInput>)
    requires (c == [] && x == []) || (|c| == 1 && |x| == 1 && c[0] == Compose(PartsOf(x[0])))
    requires |rest| == |sent| && forall i | 0 <= i < |rest| :: rest[i] == Compose(PartsOf(sent[i]))
    ensures |c + rest| == |x + sent|
    ensures forall i | 0 <= i < |c + rest| :: (c + rest)[i] == Compose(PartsOf((x + sent)[i]))
  {
    forall i | |c| <= i < |c + rest|
      ensures (c + rest)[i] == Compose(PartsOf((x + sent)[i]))
    {
      assert (c + rest)[i] == rest[i - |c|] && (x + sent)[i] == sent[i - |c|];
    }
  }

  /** `e` names the first filter that the grammar does not match. */
  predicate FirstMismatch(filters: seq<string>, e: Error) {
    exists i | 0 <= i < |filters| ::
      && Match(filters[i]).None?
      && (forall j | 0 <= j < i :: Match(filters[j]).Some?)
      && e == IllegalArgument(MalformedFilter, filters[i])
  }

  /** Behind a matching first filter, the first mismatch of the rest is the
      first mismatch of all. */
  lemma FirstMismatchBehind(filters: seq<string>, e: Error)
    requires |filters| > 0 && Match(filters[0]).Some? && FirstMismatch(filters[1..], e)
    ensures FirstMismatch(filters, e)
  {
    var i :| 0 <= i < |filters[1..]| && Match(filters[1..][i]).None?
             && (forall j | 0 <= j < i :: Match(filters[1..][j]).Some?)
             && e == IllegalArgument(MalformedFilter, filters[1..][i]);
    assert filters[i + 1] == filters[1..][i];
    assert forall j | 1 <= j < i + 1 :: filters[j] == filters[1..][j - 1];
  }

  /** `fillFields`: each filter string is matched by the same grammar as on
      the server; the first that does not match raises. */
  function ParseFilters(filters: seq<string>): (r: Result<seq<Parts>, Error>)
    ensures r.Ok? <==> forall i | 0 <= i < |filters| :: Match(filters[i]).Some?
    ensures r.Ok? ==> |r.value| == |filters|
    ensures r.Ok? ==> forall i | 0 <= i < |filters| :: Match(filters[i]) == Some(r.value[i])
    ensures r.Err? ==> FirstMismatch(filters, r.error)
  {
    if |filters| == 0 then Ok([])
    else
      match Match(filters[0])
      case None => Err(IllegalArgument(MalformedFilter, filters[0]))
      case Some(p) =>
        match ParseFilters(filters[1..])
        case Err(e) =>
          FirstMismatchBehind(filters, e);
          Err(e)
        case Ok(rest) => Ok([p] + rest)
  }

  /** The form survives the trip through the URL: every sent row whose
      fields the grammar admits is read back with the same four fields. */
  lemma FilterRoundTrip(inputs: seq<FilterInput>)
    requires forall f | f in inputs && Sent(f) :: WellFormed(PartsOf(f))
    ensures ParseFilters(ComposeFilters(inputs)).Ok?
    ensures |ParseFilters(ComposeFilters(inputs)).value| == |SentInputs(inputs)|
    ensures forall i | 0 <= i < |SentInputs(inputs)| ::
      ParseFilters(ComposeFilters(inputs)).value[i] == PartsOf(SentInputs(inputs)[i])
  {
    var sent := SentInputs(inputs);
    var filters := ComposeFilters(inputs);
    forall i | 0 <= i < |filters|
      ensures Match(filters[i]) == Some(PartsOf(sent[i]))
    {
      MatchComplete(PartsOf(sent[i]));
    }
  }

  // ---------------------------------------------------------------------
  // Column indices in refresh

  /** The names a plain object `{}` inherits from `Object.prototype`.
      Reading one of them from `columns` gives a function, never
      `undefined`, so such a name is never handed a column. */
  const PROTOTYPE_NAMES: set<string> := {
    "constructor", "hasOwnProperty", "isPrototypeOf", "propertyIsEnumerable",
    "toLocaleString", "toString", "valueOf", "__proto__",
    "__defineGetter__", "__defineSetter__", "__lookupGetter__", "__lookupSetter__"
  }

  /** The distinct elements of `s` that are not inherited names, in the
      order they first appear. */
  function FirstSeen(s: seq<string>): (d: seq<string>)
    ensures forall i, j | 0 <= i < j < |d| :: d[i] != d[j]
  {
    if |s| == 0 then []
    else
      var d := FirstSeen(s[..|s| - 1]);
      var c := s[|s| - 1];
      if c in d || c in PROTOTYPE_NAMES then d else d + [c]
  }

  /** First-seen order drops repeats and inherited names, and nothing else. */
  lemma {:induction false} FirstSeenMembers(s: seq<string>, x: string)
    ensures x in FirstSeen(s) <==> x in s && x !in PROTOTYPE_NAMES
  {
    if |s| > 0 {
      FirstSeenMembers(s[..|s| - 1], x);
      assert s == s[..|s| - 1] + [s[|s| - 1]];
    }
  }

  /** An entity as the client receives it: property names with values. */
  type JsonEntity<V> = seq<(string, V)>

  /** `entity[name]`: the value under that exact name, if any. */
  function PropertyOf<V>(entity: JsonEntity<V>, name: string): Option<V> {
    if |entity| == 0 then None
    else if entity[0].0 == name then Some(entity[0].1)
    else PropertyOf(entity[1..], name)
  }

  /** The escaped names of the entities, in iteration order. */
  function EscapedNames<V>(entities: seq<JsonEntity<V>>): seq<string> {
    if |entities| == 0 then []
    else
      var last := entities[|entities| - 1];
      EscapedNames(entities[..|entities| - 1]) + EscapedKeys(last)
  }

  /** `columns` keeps every name `columns0` has, at the same index. */
  predicate Extends(columns: map<string, nat>, columns0: map<string, nat>) {
    forall c | c in columns0 :: c in columns && columns[c] == columns0[c]
  }

  /** Every property of `entity` whose escaped name is not inherited has a
      column, and `row` holds, at that column, the entity's value under the
      escaped name; a property whose escaped name is inherited has no column,
      so its value lands on no index of `row` and the table never shows it. */
  predicate Placed<V(==)>(columns: map<string, nat>, entity: JsonEntity<V>, row: map<nat, Option<V>>) {
    forall j | 0 <= j < |entity| ::
      if EscapeHtml(entity[j].0) in PROTOTYPE_NAMES then EscapeHtml(entity[j].0) !in columns
      else
        && EscapeHtml(entity[j].0) in columns
        && columns[EscapeHtml(entity[j].0)] in row
        && row[columns[EscapeHtml(entity[j].0)]] == PropertyOf(entity, EscapeHtml(entity[j].0))
  }

  lemma PlacedExtends<V>(columns0: map<string, nat>, columns: map<string, nat>, entity: JsonEntity<V>, row: map<nat, Option<V>>)
    requires Placed(columns0, entity, row) && Extends(columns, columns0)
    requires forall c | c in columns :: c !in PROTOTYPE_NAMES
    ensures Placed(columns, entity, row)
  {
  }

  /** `columns` assigns each of `keys` its position. */
  predicate Indexed(columns: map<string, nat>, keys: seq<string>) {
    && (forall i | 0 <= i < |keys| :: keys[i] in columns && columns[keys[i]] == i)
    && (forall c | c in columns :: columns[c] < |keys| && keys[columns[c]] == c)
  }

  /** `if (columns[c] === undefined) columns[c] = Object.keys(columns).length`,
      with the key list kept alongside: the test fails both for a name that
      already has a column and for an inherited name. */
  function Admit(columns: map<string, nat>, keys: seq<string>, c: string): (map<string, nat>, seq<string>) {
    if c in columns || c in PROTOTYPE_NAMES then (columns, keys) else (columns[c := |keys|], keys + [c])
  }

  /** Admitting a name keeps the index, extends it, follows first-seen order,
      and gives the name a column exactly when it is not inherited. */
  lemma AdmitSpec(columns: map<string, nat>, keys: seq<string>, s: seq<string>, c: string)
    requires Indexed(columns, keys) && keys == FirstSeen(s)
    ensures Indexed(Admit(columns, keys, c).0, Admit(columns, keys, c).1)
    ensures Extends(Admit(columns, keys, c).0, columns)
    ensures Admit(columns, keys, c).1 == FirstSeen(s + [c])
    ensures c in Admit(columns, keys, c).0 <==> c !in PROTOTYPE_NAMES
  {
    assert (s + [c])[..|s + [c]| - 1] == s;
    if c in columns {
      FirstSeenMembers(s, c);
    }
  }

  /** An index built in first-seen order holds no inherited name. */
  lemma NoInheritedColumn(columns: map<string, nat>, keys: seq<string>, s: seq<string>)
    requires Indexed(columns, keys) && keys == FirstSeen(s)
    ensures forall c | c in columns :: c !in PROTOTYPE_NAMES
  {
    forall c | c in columns
      ensures c !in PROTOTYPE_NAMES
    {
      FirstSeenMembers(s, c);
    }
  }

  /** Two names with the same index are the same name. */
  lemma IndexedInjective(columns: map<string, nat>, keys: seq<string>, x: string, y: string)
    requires Indexed(columns, keys) && x in columns && y in columns && columns[x] == columns[y]
    ensures x == y
  {
  }

  /** The escaped names of one entity, in iteration order. */
  function EscapedKeys<V>(entity: JsonEntity<V>): (names: seq<string>)
    ensures |names| == |entity|
    ensures forall j | 0 <= j < |entity| :: names[j] == EscapeHtml(entity[j].0)
  {
    seq(|entity|, i requires 0 <= i < |entity| => EscapeHtml(entity[i].0))
  }

  /** The cells of the first `j` names that are not inherited are set. */
  ghost predicate Filled<V>(columns: map<string, nat>, names: seq<string>, entity: JsonEntity<V>, j: nat, row: map<nat, Option<V>>) {
    && j <= |names|
    && forall m | 0 <= m < j && names[m] !in PROTOTYPE_NAMES ::
      names[m] in columns && columns[names[m]] in row && row[columns[names[m]]] == PropertyOf(entity, names[m])
  }

  lemma FillStep<V>(before: map<string, nat>, columns: map<string, nat>, keys: seq<string>,
                        names: seq<string>, entity: JsonEntity<V>, j: nat, row: map<nat, Option<V>>)
    requires j < |names| && Indexed(columns, keys) && Extends(columns, before) && names[j] in columns
    requires Filled(before, names, entity, j, row)
    ensures Filled(columns, names, entity, j + 1, row[columns[names[j]] := PropertyOf(entity, names[j])])
  {
    var c := names[j];
    forall m | 0 <= m < j && names[m] !in PROTOTYPE_NAMES && columns[names[m]] == columns[c]
      ensures names[m] == c
    {
      IndexedInjective(columns, keys, names[m], c);
    }
  }

  lemma NamesStep<V>(entities: seq<JsonEntity<V>>, e: nat)
    requires e < |entities|
    ensures EscapedNames(entities[..e + 1]) == EscapedNames(entities[..e]) + EscapedKeys(entities[e])
  {
    assert entities[..e + 1][..e] == entities[..e];
  }

  lemma MatrixExtends<V>(columns0: map<string, nat>, columns: map<string, nat>,
                             entities: seq<JsonEntity<V>>, matrix: seq<map<nat, Option<V>>>, e: nat)
    requires e <= |entities| && e <= |matrix| && Extends(columns, columns0)
    requires forall c | c in columns :: c !in PROTOTYPE_NAMES
    requires forall f | 0 <= f < e :: Placed(columns0, entities[f], matrix[f])
    ensures forall f | 0 <= f < e :: Placed(columns, entities[f], matrix[f])
  {
    forall f | 0 <= f < e
      ensures Placed(columns, entities[f], matrix[f])
    {
      PlacedExtends(columns0, columns, entities[f], matrix[f]);
    }
  }

  lemma MatrixAppend<V>(columns: map<string, nat>, entities: seq<JsonEntity<V>>,
                        matrix: seq<map<nat, Option<V>>>, row: map<nat, Option<V>>, e: nat)
    requires e < |entities| && |matrix| == e
    requires forall f | 0 <= f < e :: Placed(columns, entities[f], matrix[f])
    requires Placed(columns, entities[e], row)
    ensures forall f | 0 <= f < e + 1 :: Placed(columns, entities[f], (matrix + [row])[f])
  {
    forall f | 0 <= f < e + 1
      ensures Placed(columns, entities[f], (matrix + [row])[f])
    {
      if f < e {
        assert (matrix + [row])[f] == matrix[f];
      }
    }
  }

  /** After the first `j` names of an entity: the index covers everything
      seen so far in first-seen order and the first `j` cells are set. */
  ghost predicate Progress<V>(columns0: map<string, nat>, seen: seq<string>, names: seq<string>, entity: JsonEntity<V>,
                              j: nat, columns: map<string, nat>, keys: seq<string>, row: map<nat, Option<V>>) {
    && j <= |names|
    && Indexed(columns, keys) && Extends(columns, columns0)
    && keys == FirstSeen(seen + names[..j])
    && Filled(columns, names, entity, j, row)
  }

  lemma IndexStep<V>(columns0: map<string, nat>, seen: seq<string>, names: seq<string>, entity: JsonEntity<V>,
                     j: nat, columns: map<string, nat>, keys: seq<string>, row: map<nat, Option<V>>)
    requires j < |names| && Progress(columns0, seen, names, entity, j, columns, keys, row)
    ensures var (columns', keys') := Admit(columns, keys, names[j]);
      Progress(columns0, seen, names, entity, j + 1, columns', keys',
               if names[j] in PROTOTYPE_NAMES then row else row[columns'[names[j]] := PropertyOf(entity, names[j])])
  {
    var c := names[j];
    AdmitSpec(columns, keys, seen + names[..j], c);
    assert seen + names[..j + 1] == (seen + names[..j]) + [c];
    var (columns', keys') := Admit(columns, keys, c);
    if c !in PROTOTYPE_NAMES {
      FillStep(columns, columns', keys', names, entity, j, row);
    }
  }

  /** The inner loop over one entity: an unseen escaped name gets the next
      index; the cell at the name's index is set to the entity's value under
      the ESCAPED name, which is its own value only when escaping left the
      name unchanged. An inherited name gets no index, and its value is
      stored under a non-index key of the row, which the model leaves out. */
  method IndexEntity<V(==)>(columns0: map<string, nat>, keys0: seq<string>, seen: seq<string>, entity: JsonEntity<V>)
    returns (columns: map<string, nat>, keys: seq<string>, row: map<nat, Option<V>>)
    requires Indexed(columns0, keys0) && keys0 == FirstSeen(seen)
    ensures Indexed(columns, keys) && Extends(columns, columns0)
    ensures keys == FirstSeen(seen + EscapedKeys(entity))
    ensures Placed(columns, entity, row)
  {
    var names := EscapedKeys(entity);
    columns, keys, row := columns0, keys0, map[];
    assert seen + names[..0] == seen;
    var j := 0;
    while j < |entity|
      invariant Progress(columns0, seen, names, entity, j, columns, keys, row)
    {
      IndexStep(columns0, seen, names, entity, j, columns, keys, row);
      var c := names[j];
      columns, keys := Admit(columns, keys, c).0, Admit(columns, keys, c).1;
      if c !in PROTOTYPE_NAMES {
        row := row[columns[c] := PropertyOf(entity, c)];
      }
      j := j + 1;
    }
    assert names[..j] == names;
    assert Filled(columns, names, entity, |names|, row);
    NoInheritedColumn(columns, keys, seen + names);
  }

  /** The loop of `refresh`: column indices are handed out in first-seen
      order of the escaped names, so they are exactly 0 .. k-1 for the k
      distinct escaped names that are not inherited, and every row places
      each of those values in its name's column. */
  method IndexColumns<V(==)>(entities: seq<JsonEntity<V>>)
    returns (columns: map<string, nat>, keys: seq<string>, matrix: seq<map<nat, Option<V>>>)
    ensures keys == FirstSeen(EscapedNames(entities))
    ensures forall i | 0 <= i < |keys| :: keys[i] in columns && columns[keys[i]] == i
    ensures forall c | c in columns :: columns[c] < |keys| && keys[columns[c]] == c
    ensures forall c | c in columns :: c !in PROTOTYPE_NAMES
    ensures |matrix| == |entities|
    ensures forall e | 0 <= e < |entities| :: Placed(columns, entities[e], matrix[e])
  {
    columns, keys, matrix := map[], [], [];
    var e := 0;
    while e < |entities|
      invariant e <= |entities| && |matrix| == e
      invariant Indexed(columns, keys)
      invariant keys == FirstSeen(EscapedNames(entities[..e]))
      invariant forall f | 0 <= f < e :: Placed(columns, entities[f], matrix[f])
    {
      NamesStep(entities, e);
      var columns', keys', row := IndexEntity(columns, keys, EscapedNames(entities[..e]), entities[e]);
      NoInheritedColumn(columns', keys', EscapedNames(entities[..e + 1]));
      MatrixExtends(columns, columns', entities, matrix, e);
      MatrixAppend(columns', entities, matrix, row, e);
      columns, keys := columns', keys';
      matrix := matrix + [row];
      e := e + 1;
    }
    assert entities[..e] == entities;
    NoInheritedColumn(columns, keys, EscapedNames(entities));
  }
}

=== FILE: filter_grammar.dfy ===
/** The filter grammar shared by the server (`DBResource.addFilters`) and
    the client (`fillFields` in db.js), written there as the case-insensitive
    regular expression
        ^([^<>=!]+) ([<>=!]+) (String|Long|Key|Boolean|Email|Null)\(([^\)]*)\)$
    and the composer on the client that writes
        name + ' ' + operator + ' ' + type + '(' + value + ')'. */
module FilterGrammar {
  import opened Base
  import opened Strings

  /** The four groups of a match: field, operator, type name as written,
      raw value. */
  datatype Parts = Parts(field: string, op: string, typeName: string, value: string)

  predicate IsOpChar(c: char) { c == '<' || c == '>' || c == '=' || c == '!' }

  /** The alternation `String|Long|Key|Boolean|Email|Null`, matched ASCII
      case-insensitively. */
  predicate IsTypeName(t: string) {
    Upper(t) in {"STRING", "LONG", "KEY", "BOOLEAN", "EMAIL", "NULL"}
  }

  /** Parts the regular expression can produce. */
  predicate WellFormed(p: Parts) {
    && |p.field| > 0
    && (forall i | 0 <= i < |p.field| :: !IsOpChar(p.field[i]))
    && |p.op| > 0
    && (forall i | 0 <= i < |p.op| :: IsOpChar(p.op[i]))
    && IsTypeName(p.typeName)
    && ')' !in p.value
  }

  /** The client's composer. */
  function Compose(p: Parts): string {
    p.field + " " + p.op + " " + Tail(p.typeName, p.value)
  }

  /** The last part the composer writes: `type(value)`. */
  function Tail(typeName: string, value: string): string {
    typeName + "(" + value + ")"
  }

  /** Index of the first operator character, or `|s|`. */
  function FirstOp(s: string): (i: nat)
    ensures i <= |s|
    ensures i < |s| ==> IsOpChar(s[i])
    ensures forall j | 0 <= j < i :: !IsOpChar(s[j])
  {
    if |s| == 0 then 0 else if IsOpChar(s[0]) then 0 else 1 + FirstOp(s[1..])
  }

  /** End of the run of operator characters starting at `i`. */
  function OpRunEnd(s: string, i: nat): (k: nat)
    requires i <= |s|
    ensures i <= k <= |s|
    ensures forall j | i <= j < k :: IsOpChar(s[j])
    ensures k < |s| ==> !IsOpChar(s[k])
    decreases |s| - i
  {
    if i == |s| || !IsOpChar(s[i]) then i else OpRunEnd(s, i + 1)
  }

  lemma FirstOpIs(s: string, i: nat)
    requires i <= |s|
    requires i < |s| ==> IsOpChar(s[i])
    requires forall j | 0 <= j < i :: !IsOpChar(s[j])
    ensures FirstOp(s) == i
  {
  }

  lemma OpRunEndIs(s: string, i: nat, k: nat)
    requires i <= k <= |s|
    requires forall j | i <= j < k :: IsOpChar(s[j])
    requires k < |s| ==> !IsOpChar(s[k])
    ensures OpRunEnd(s, i) == k
  {
  }

  /** Matching the regular expression. The field group cannot hold an
      operator character, so it ends one space before the first one; the
      operator group then runs to the next non-operator character; after the
      next space comes the tail `Type(value)`. */
  function Match(s: string): (r: Option<Parts>)
  {
    var p := FirstOp(s);
    if p < 2 || p == |s| || s[p - 1] != ' ' then None
    else
      var q := OpRunEnd(s, p);
      if q == |s| || s[q] != ' ' then None
      else
        match MatchTail(s[q + 1..])
        case None => None
        case Some((t, v)) => Some(Parts(s[..p - 1], s[p..q], t, v))
  }

  /** The tail `Type(value)`: the type name is a letter word ending at the
      first `(`; the value is everything up to the final `)` and must not
      contain another `)`. */
  function MatchTail(rest: string): Option<(string, string)> {
    var j := IndexOf(rest, '(');
    if j == |rest| || rest[|rest| - 1] != ')' || !IsTypeName(rest[..j]) then None
    else
      var v := rest[j + 1..|rest| - 1];
      if ')' in v then None else Some((rest[..j], v))
  }

  /** A matched type name has no `(` in it (it is one of six letter words). */
  lemma TypeNameHasNoParen(t: string)
    requires IsTypeName(t)
    ensures '(' !in t
  {
  }

  /** `Match` at given cut points: first operator at `p`, operator run
      ending at `q`, and a tail that matches. */
  lemma MatchAt(s: string, p: nat, q: nat, m: Parts)
    requires 2 <= p < q < |s| && s[p - 1] == ' ' && s[q] == ' '
    requires FirstOp(s) == p && OpRunEnd(s, p) == q
    requires s[..p - 1] == m.field && s[p..q] == m.op
    requires MatchTail(s[q + 1..]) == Some((m.typeName, m.value))
    ensures Match(s) == Some(m)
  {
  }

  /** `MatchTail` at a given first `(`. */
  lemma TailAt(rest: string, j: nat)
    requires j + 1 < |rest| && IndexOf(rest, '(') == j
    requires rest[|rest| - 1] == ')' && IsTypeName(rest[..j])
    requires ')' !in rest[j + 1..|rest| - 1]
    ensures MatchTail(rest) == Some((rest[..j], rest[j + 1..|rest| - 1]))
  {
  }

  /** Whatever matches is the composition of well-formed parts. */
  lemma MatchSound(s: string)
    requires Match(s).Some?
    ensures WellFormed(Match(s).value)
    ensures Compose(Match(s).value) == s
  {
    MatchFormed(s);
    MatchComposes(s);
  }

  /** The groups of a match keep to their character classes. */
  lemma MatchFormed(s: string)
    requires Match(s).Some?
    ensures WellFormed(Match(s).value)
  {
    var m := Match(s).value;
    var p := FirstOp(s);
    var q := OpRunEnd(s, p);
    assert MatchTail(s[q + 1..]) == Some((m.typeName, m.value));
    assert m.field == s[..p - 1] && m.op == s[p..q];
  }

  /** Composing the groups of a match gives the matched text back. */
  lemma MatchComposes(s: string)
    requires Match(s).Some?
    ensures Compose(Match(s).value) == s
  {
    var m := Match(s).value;
    var p := FirstOp(s);
    var q := OpRunEnd(s, p);
    TailComposes(s[q + 1..], m.typeName, m.value);
    assert m == Parts(s[..p - 1], s[p..q], m.typeName, m.value);
    Glue(s, p - 1, q);
  }

  /** Composing the groups of a tail match gives the tail back. */
  lemma TailComposes(rest: string, t: string, v: string)
    requires MatchTail(rest) == Some((t, v))
    ensures Tail(t, v) == rest
  {
    var j := IndexOf(rest, '(');
    Glue(rest, j, |rest| - 1);
    assert rest[|rest|..] == [];
  }

  /** Where the grammar cuts `Compose(p)`: the first operator character is
      right after the field and its space, and the operator run ends at the
      space after the operator. */
  lemma ComposeCuts(p: Parts, s: string, a: nat, q: nat)
    requires WellFormed(p) && s == Compose(p)
    requires a == |p.field| + 1 && q == a + |p.op|
    ensures 2 <= a < q < |s| && s[a - 1] == ' ' && s[q] == ' '
    ensures FirstOp(s) == a && OpRunEnd(s, a) == q
    ensures s[..a - 1] == p.field && s[a..q] == p.op
    ensures s[q + 1..] == Tail(p.typeName, p.value)
  {
    Cuts(s, p.field, ' ', p.op, ' ', Tail(p.typeName, p.value));
    OpCuts(s, p.field, p.op);
  }

  /** A field free of operator characters, a space, then an operator run
      followed by a space: the first operator character and the end of the
      run. */
  lemma OpCuts(s: string, field: string, op: string)
    requires |field| + 1 + |op| < |s|
    requires forall j | 0 <= j < |field| :: !IsOpChar(field[j])
    requires forall j | 0 <= j < |op| :: IsOpChar(op[j])
    requires forall j | 0 <= j < |field| :: s[j] == field[j]
    requires forall j | 0 <= j < |op| :: s[|field| + 1 + j] == op[j]
    requires |op| > 0 && s[|field|] == ' ' && s[|field| + 1 + |op|] == ' '
    ensures FirstOp(s) == |field| + 1
    ensures OpRunEnd(s, |field| + 1) == |field| + 1 + |op|
  {
    var a := |field| + 1;
    var b := a + |op|;
    forall j | 0 <= j < a
      ensures !IsOpChar(s[j])
    {
      if j < |field| {
        assert s[j] == field[j];
      }
    }
    assert s[|field| + 1 + 0] == op[0];
    FirstOpIs(s, a);
    forall j | a <= j < b
      ensures IsOpChar(s[j])
    {
      assert s[a + (j - a)] == op[j - a];
    }
    OpRunEndIs(s, a, b);
  }

  /** The tail of a composition matches, giving back the type name and
      the value. */
  lemma TailCuts(p: Parts, rest: string)
    requires WellFormed(p) && rest == Tail(p.typeName, p.value)
    ensures MatchTail(rest) == Some((p.typeName, p.value))
  {
    TypeNameHasNoParen(p.typeName);
    forall j | 0 <= j < |p.typeName|
      ensures rest[j] != '('
    {
      assert rest[j] == p.typeName[j];
    }
    IndexOfIs(rest, '(', |p.typeName|);
    assert rest[..|p.typeName|] == p.typeName;
    assert rest[|p.typeName| + 1..|rest| - 1] == p.value;
    TailAt(rest, |p.typeName|);
  }

  /** Every composition of well-formed parts matches, giving those parts back. */
  lemma MatchComplete(p: Parts)
    requires WellFormed(p)
    ensures Match(Compose(p)) == Some(p)
  {
    var s := Compose(p);
    var a := |p.field| + 1;
    var q := a + |p.op|;
    ComposeCuts(p, s, a, q);
    TailCuts(p, s[q + 1..]);
    MatchAt(s, a, q, p);
  }

  /** The grammar exactly: `s` matches with groups `p` if and only if `p`
      is well formed and `s` is its composition. In particular the
      decomposition is unique. */
  lemma MatchIff(s: string, p: Parts)
    ensures Match(s) == Some(p) <==> WellFormed(p) && s == Compose(p)
  {
    if Match(s) == Some(p) {
      MatchSound(s);
    }
    if WellFormed(p) && s == Compose(p) {
      MatchComplete(p);
    }
  }
}

=== FILE: filters.dfy ===
/** `DBResource.addFilters` and `toFilterOperator`: each filter string is
    matched against the filter grammar, its operator and type tag are
    resolved, its value is decoded, and the predicates are combined. */
module Filters {
  import opened Base
  import opened Strings
  import opened Keys
  import opened ValueType
  import opened FilterGrammar

  /** The store's comparison operators, in the order `values()` lists them.
      Their symbols are the store library's `toString`, taken here as
      `<`, `<=`, `>`, `>=`, `=`, `!=` and `IN`. */
  datatype Operator =
    | LessThan | LessThanOrEqual | GreaterThan | GreaterThanOrEqual
    | Equal | NotEqual | In

  const ALL_OPERATORS: seq<Operator> :=
    [LessThan, LessThanOrEqual, GreaterThan, GreaterThanOrEqual, Equal, NotEqual, In]

  function Symbol(op: Operator): string {
    match op
    case LessThan => "<"
    case LessThanOrEqual => "<="
    case GreaterThan => ">"
    case GreaterThanOrEqual => ">="
    case Equal => "="
    case NotEqual => "!="
    case In => "IN"
  }

  function FindOperator(ops: seq<Operator>, symbol: string): (r: Option<Operator>)
    ensures r.Some? ==> Symbol(r.value) == symbol
    ensures r.None? ==> forall op | op in ops :: Symbol(op) != symbol
  {
    if |ops| == 0 then None
    else if Symbol(ops[0]) == symbol then Some(ops[0])
    else FindOperator(ops[1..], symbol)
  }

  /** `toFilterOperator`: the operator whose symbol equals the text. */
  function ToFilterOperator(symbol: string): (r: Result<Operator, Error>)
    ensures r.Ok? ==> Symbol(r.value) == symbol
    ensures r.Err? ==> r.error == IllegalArgument(UnknownOperator, symbol)
  {
    match FindOperator(ALL_OPERATORS, symbol)
    case Some(op) => Ok(op)
    case None => Err(IllegalArgument(UnknownOperator, symbol))
  }

  /** Exactly the seven operator symbols resolve. */
  lemma OperatorSymbols(symbol: string)
    ensures ToFilterOperator(symbol).Ok? <==> symbol in {"<", "<=", ">", ">=", "=", "!=", "IN"}
  {
    if symbol in {"<", "<=", ">", ">=", "=", "!=", "IN"} {
      assert symbol == "<" || symbol == "<=" || symbol == ">" || symbol == ">="
        || symbol == "=" || symbol == "!=" || symbol == "IN";
    }
  }

  /** The grammar's operator group holds only `<>=!`, so `IN` is never
      reachable through a filter string. */
  lemma GrammarOperator(op: string)
    requires forall i | 0 <= i < |op| :: IsOpChar(op[i])
    ensures ToFilterOperator(op).Ok? <==> op in {"<", "<=", ">", ">=", "=", "!="}
  {
    OperatorSymbols(op);
  }

  datatype Predicate = Predicate(field: string, op: Operator, value: Decoded)

  /** What the query's filter is set to: a single predicate, or an AND
      composite of several. */
  datatype Filter = Single(only: Predicate) | And(predicates: seq<Predicate>)

  /** One filter string: match the grammar, then resolve its parts. */
  function ParseFilter(ps: Parsers, filter: string): Result<Predicate, Error> {
    match Match(filter)
    case None => Err(IllegalArgument(MalformedFilter, filter))
    case Some(parts) => ParseParts(ps, parts)
  }

  /** The matched groups: resolve the operator, resolve the tag from the
      upper-cased type name, force KEY for the reserved key field, decode
      the value. The steps fail in that order. */
  function ParseParts(ps: Parsers, parts: Parts): Result<Predicate, Error> {
    match ToFilterOperator(parts.op)
    case Err(e) => Err(e)
    case Ok(op) =>
      match ValueOf(Upper(parts.typeName))
      case None => Err(IllegalArgument(UnknownTag, Upper(parts.typeName)))
      case Some(declared) =>
        var tag := if parts.field == KEY_PROPERTY then KeyTag else declared;
        match Decode(ps, tag, parts.value)
        case Err(e) => Err(e)
        case Ok(v) => Ok(Predicate(parts.field, op, v))
  }

  /** The tag an upper-cased grammar type name resolves to. */
  function TagNamed(u: string): Option<Tag> {
    if u == "STRING" then Some(StringTag)
    else if u == "BOOLEAN" then Some(BooleanTag)
    else if u == "EMAIL" then Some(Email)
    else if u == "NULL" then Some(Null)
    else if u == "KEY" then Some(KeyTag)
    else None
  }

  /** Of the six type names the grammar admits, all but LONG name a tag. */
  lemma ValueOfTypeName(u: string)
    requires u in {"STRING", "LONG", "KEY", "BOOLEAN", "EMAIL", "NULL"}
    ensures ValueOf(u) == TagNamed(u)
  {
    if u == "LONG" {
      NoLongTag(u);
    } else if u == "STRING" {
      ValueOfName(StringTag);
    } else if u == "BOOLEAN" {
      ValueOfName(BooleanTag);
    } else if u == "EMAIL" {
      ValueOfName(Email);
    } else if u == "NULL" {
      ValueOfName(Null);
    } else {
      ValueOfName(KeyTag);
    }
  }

  /** The filters that succeed, stated on the grammar's parts: a comparison
      symbol, a field other than `__key__`, and a String, Boolean or Email
      type, or a Null type with an empty value. */
  predicate Accepted(p: Parts) {
    && p.op in {"<", "<=", ">", ">=", "=", "!="}
    && p.field != KEY_PROPERTY
    && (|| Upper(p.typeName) in {"STRING", "BOOLEAN", "EMAIL"}
        || (Upper(p.typeName) == "NULL" && p.value == ""))
  }

  /** The value a successful filter carries. */
  function ExpectedValue(p: Parts): Decoded {
    var u := Upper(p.typeName);
    if u == "STRING" then StringValue(p.value)
    else if u == "BOOLEAN" then BooleanValue(EqualsIgnoreCase(p.value, "true"))
    else if u == "EMAIL" then EmailValue(p.value)
    else NullValue
  }

  /** Well-formed parts resolve exactly when they are accepted, and then
      to the field, the operator with that symbol and the expected value. */
  lemma ParsePartsOutcome(ps: Parsers, p: Parts)
    requires WellFormed(p)
    ensures ParseParts(ps, p).Ok? <==> Accepted(p)
    ensures ParseParts(ps, p).Ok? ==>
      var pred := ParseParts(ps, p).value;
      pred.field == p.field && Symbol(pred.op) == p.op && pred.value == ExpectedValue(p)
  {
    var u := Upper(p.typeName);
    if ToFilterOperator(p.op).Err? {
      OperatorOutcome(ps, p);
    } else {
      var op := ToFilterOperator(p.op).value;
      if u == "LONG" {
        LongPartsFail(ps, p);
        assert !Accepted(p);
      } else if p.field == KEY_PROPERTY || u == "KEY" {
        KeyPartsFail(ps, p, op);
        assert !Accepted(p);
      } else {
        GrammarOperator(p.op);
        PlainOutcome(ps, p, op);
      }
    }
  }

  /** An operator the store does not know fails the filter, and such an
      operator is not among the accepted ones. */
  lemma OperatorOutcome(ps: Parsers, p: Parts)
    requires WellFormed(p) && ToFilterOperator(p.op).Err?
    ensures ParseParts(ps, p).Err? && !Accepted(p)
  {
    GrammarOperator(p.op);
  }

  /** `ParsePartsOutcome` for a resolved operator, a field other than
      `__key__` and one of the four plain type names. */
  lemma PlainOutcome(ps: Parsers, p: Parts, op: Operator)
    requires ToFilterOperator(p.op) == Ok(op) && p.field != KEY_PROPERTY
    requires Upper(p.typeName) in {"STRING", "BOOLEAN", "EMAIL", "NULL"}
    requires p.op in {"<", "<=", ">", ">=", "=", "!="}
    ensures ParseParts(ps, p).Ok? <==> Accepted(p)
    ensures ParseParts(ps, p).Ok? ==> ParseParts(ps, p) == Ok(Predicate(p.field, op, ExpectedValue(p)))
  {
    PlainParts(ps, p, op, Upper(p.typeName));
  }

  /** LONG names no tag. */
  lemma LongPartsFail(ps: Parsers, p: Parts)
    requires Upper(p.typeName) == "LONG"
    ensures ParseParts(ps, p).Err?
  {
    NoLongTag(Upper(p.typeName));
  }

  /** With the operator resolved, a key-typed value is rejected. */
  lemma KeyPartsFail(ps: Parsers, p: Parts, op: Operator)
    requires WellFormed(p) && ToFilterOperator(p.op) == Ok(op)
    requires Upper(p.typeName) != "LONG"
    requires p.field == KEY_PROPERTY || Upper(p.typeName) == "KEY"
    ensures ParseParts(ps, p).Err?
  {
    var u := Upper(p.typeName);
    ValueOfTypeName(u);
    NoParenNoKey(p.value);
    DecodeFilterTag(ps, KeyTag, p.value);
  }

  /** With the operator and the tag resolved, a field other than
      `__key__` decodes its value with that tag. */
  lemma PartsWithTag(ps: Parsers, p: Parts, op: Operator, t: Tag)
    requires ToFilterOperator(p.op) == Ok(op) && ValueOf(Upper(p.typeName)) == Some(t)
    requires p.field != KEY_PROPERTY
    ensures Decode(ps, t, p.value).Ok? ==> ParseParts(ps, p) == Ok(Predicate(p.field, op, Decode(ps, t, p.value).value))
    ensures Decode(ps, t, p.value).Err? ==> ParseParts(ps, p).Err?
  {
  }

  /** With the operator resolved, a field other than `__key__` with a
      String, Boolean, Email or Null type decodes as its type says. */
  lemma PlainParts(ps: Parsers, p: Parts, op: Operator, u: string)
    requires ToFilterOperator(p.op) == Ok(op)
    requires u == Upper(p.typeName) && u in {"STRING", "BOOLEAN", "EMAIL", "NULL"}
    requires p.field != KEY_PROPERTY
    ensures ParseParts(ps, p).Ok? <==> u != "NULL" || p.value == ""
    ensures ParseParts(ps, p).Ok? ==> ParseParts(ps, p) == Ok(Predicate(p.field, op, ExpectedValue(p)))
  {
    if u == "STRING" {
      TypedParts(ps, p, op, u, StringTag);
    } else if u == "BOOLEAN" {
      TypedParts(ps, p, op, u, BooleanTag);
    } else if u == "EMAIL" {
      TypedParts(ps, p, op, u, Email);
      DecodeFilterTag(ps, Email, p.value);
    } else {
      TypedParts(ps, p, op, u, Null);
      DecodeFilterTag(ps, Null, p.value);
    }
  }

  /** One type name of `PlainParts`, with its tag known. */
  lemma TypedParts(ps: Parsers, p: Parts, op: Operator, u: string, t: Tag)
    requires ToFilterOperator(p.op) == Ok(op) && p.field != KEY_PROPERTY
    requires u == Upper(p.typeName) && u in {"STRING", "BOOLEAN", "EMAIL", "NULL"} && TagNamed(u) == Some(t)
    ensures Decode(ps, t, p.value).Ok? ==> ParseParts(ps, p) == Ok(Predicate(p.field, op, Decode(ps, t, p.value).value))
    ensures Decode(ps, t, p.value).Err? ==> ParseParts(ps, p).Err?
  {
    ValueOfTypeName(u);
    PartsWithTag(ps, p, op, t);
  }

  /** A filter parses exactly when it matches the grammar and its parts are
      accepted; the predicate then carries the field, the operator with that
      symbol, and the decoded value. So every `Long(...)` filter, every
      `Key(...)` filter and every filter on `__key__` is rejected. */
  lemma ParseFilterOutcome(ps: Parsers, filter: string)
    ensures ParseFilter(ps, filter).Ok? <==> Match(filter).Some? && Accepted(Match(filter).value)
    ensures ParseFilter(ps, filter).Ok? ==>
      var p := Match(filter).value;
      var pred := ParseFilter(ps, filter).value;
      pred.field == p.field && Symbol(pred.op) == p.op && pred.value == ExpectedValue(p)
  {
    if Match(filter).Some? {
      MatchSound(filter);
      ParsePartsOutcome(ps, Match(filter).value);
    }
  }

  /** `Long(...)` names no tag, so the filter fails even on `__key__`,
      because the tag is resolved before the key override. */
  lemma LongFilterFails(ps: Parsers, filter: string)
    requires Match(filter).Some? && Upper(Match(filter).value.typeName) == "LONG"
    ensures ToFilterOperator(Match(filter).value.op).Ok? ==>
      ParseFilter(ps, filter) == Err(IllegalArgument(UnknownTag, "LONG"))
    ensures ParseFilter(ps, filter).Err?
  {
    NoLongTag(Upper(Match(filter).value.typeName));
  }

  /** A key-typed value comes from `[^)]*` and so never ends in `)`: every
      filter on `__key__` and every `Key(...)` filter fails. */
  lemma KeyFilterFails(ps: Parsers, filter: string)
    requires Match(filter).Some?
    requires Match(filter).value.field == KEY_PROPERTY || Upper(Match(filter).value.typeName) == "KEY"
    ensures ParseFilter(ps, filter).Err?
  {
    ParseFilterOutcome(ps, filter);
  }

  /** The results in order; the first failure aborts. */
  function Collect<T>(results: seq<Result<T, Error>>): (r: Result<seq<T>, Error>)
    ensures r.Ok? <==> forall i | 0 <= i < |results| :: results[i].Ok?
    ensures r.Ok? ==> |r.value| == |results| && forall i | 0 <= i < |results| :: results[i] == Ok(r.value[i])
    ensures r.Err? ==> exists i | 0 <= i < |results| ::
      results[i] == Err(r.error) && forall j | 0 <= j < i :: results[j].Ok?
  {
    if |results| == 0 then Ok([])
    else
      match results[0]
      case Err(e) => Err(e)
      case Ok(p) =>
        match Collect(results[1..])
        case Err(e) =>
          var i :| 0 <= i < |results[1..]| && results[1..][i] == Err(e)
                   && forall j | 0 <= j < i :: results[1..][j].Ok?;
          assert results[i + 1] == Err(e);
          assert forall j | 1 <= j < i + 1 :: results[j] == results[1..][j - 1];
          Err(e)
        case Ok(rest) =>
          assert forall i | 1 <= i < |results| :: results[i] == results[1..][i - 1];
          Ok([p] + rest)
  }

  /** `e` is what the first filter that does not parse fails with. */
  predicate FirstFailure(ps: Parsers, filters: seq<string>, e: Error) {
    exists i | 0 <= i < |filters| ::
      ParseFilter(ps, filters[i]) == Err(e) && forall j | 0 <= j < i :: ParseFilter(ps, filters[j]).Ok?
  }

  lemma FirstFailureAt(ps: Parsers, filters: seq<string>, results: seq<Result<Predicate, Error>>, i: nat, e: Error)
    requires |results| == |filters| && forall j | 0 <= j < |filters| :: results[j] == ParseFilter(ps, filters[j])
    requires i < |results| && results[i] == Err(e) && forall j | 0 <= j < i :: results[j].Ok?
    ensures FirstFailure(ps, filters, e)
  {
    assert ParseFilter(ps, filters[i]) == Err(e);
    assert forall j | 0 <= j < i :: ParseFilter(ps, filters[j]).Ok?;
  }

  /** The filters in order; the first failure aborts. */
  function ParsePredicates(ps: Parsers, filters: seq<string>): (r: Result<seq<Predicate>, Error>)
    ensures r.Ok? ==> |r.value| == |filters|
    ensures r.Ok? ==> forall i | 0 <= i < |filters| :: ParseFilter(ps, filters[i]) == Ok(r.value[i])
    ensures r.Err? ==> FirstFailure(ps, filters, r.error)
  {
    var results := seq(|filters|, i requires 0 <= i < |filters| => ParseFilter(ps, filters[i]));
    var r := Collect(results);
    if r.Err? then
      var i :| 0 <= i < |results| && results[i] == Err(r.error) && forall j | 0 <= j < i :: results[j].Ok?;
      FirstFailureAt(ps, filters, results, i, r.error);
      r
    else
      r
  }

  /** Zero predicates leave the query unfiltered, one is set directly, two
      or more become one AND composite. */
  function Combine(preds: seq<Predicate>): Option<Filter> {
    if |preds| == 0 then None
    else if |preds| == 1 then Some(Single(preds[0]))
    else Some(And(preds))
  }

  /** The predicates a query filter applies, in order. */
  function Applied(f: Option<Filter>): seq<Predicate> {
    match f
    case None => []
    case Some(Single(p)) => [p]
    case Some(And(ps)) => ps
  }

  /** Combining loses no predicate and reorders none, and never builds a
      trivial composite. */
  lemma CombineKeepsPredicates(preds: seq<Predicate>)
    ensures Applied(Combine(preds)) == preds
    ensures Combine(preds).Some? && Combine(preds).value.And? ==> |Combine(preds).value.predicates| >= 2
    ensures Combine(preds).None? <==> |preds| == 0
  {
  }

  /** `addFilters`: the filter the query ends up with. */
  function AddFilters(ps: Parsers, filters: seq<string>): (r: Result<Option<Filter>, Error>)
    ensures r.Ok? ==> ParsePredicates(ps, filters).Ok? && Applied(r.value) == ParsePredicates(ps, filters).value
    ensures r.Err? <==> exists i | 0 <= i < |filters| :: ParseFilter(ps, filters[i]).Err?
    ensures r.Err? ==> FirstFailure(ps, filters, r.error)
  {
    match ParsePredicates(ps, filters)
    case Err(e) => Err(e)
    case Ok(preds) =>
      CombineKeepsPredicates(preds);
      Ok(Combine(preds))
  }
}

=== FILE: keys.dfy ===
/** Entity keys and the two string grammars that read them.

    - The ad-hoc grammar of `DBResource.asKey` reads one flat key,
      `Kind(123)` or `Kind("name")`, after trimming.
    - The grammar of the KEY value kind (`Row.Value.Type.KEY.fromString`)
      reads a slash-separated ancestor chain `Parent(1)/Kind(2)` with
      numeric identifiers only. */
module Keys {
  import opened Base
  import opened Strings

  /** The reserved property name under which an entity's own key appears. */
  const KEY_PROPERTY: string := "__key__"

  datatype Id = Numeric(n: nat) | Named(name: string)

  /** A store key: a kind, an identifier and an optional parent key. The
      store's own validation on construction (non-empty kind, non-zero id)
      is not part of this model: keys are built as given. */
  datatype Key = Key(kind: string, id: Id, parent: Option<Key>)

  // ---------------------------------------------------------------------
  // Ad-hoc grammar: ^(\w+)\((\d+)\)$ first, then ^(\w+)\("([^"]+)"\)$

  /** `^(\w+)\((\d+)\)$`: a word, then a parenthesised non-empty digit run. */
  predicate MatchesIdPattern(s: string) {
    var j := IndexOf(s, '(');
    IsWord(s[..j]) && j + 3 <= |s| && s[|s| - 1] == ')' && AllDigits(s[j + 1..|s| - 1])
  }

  /** A name accepted by `([^"]+)`. */
  predicate IsQuoteFreeName(n: string) {
    |n| > 0 && '"' !in n
  }

  /** `^(\w+)\("([^"]+)"\)$`: a word, then a parenthesised quoted name. */
  predicate MatchesNamePattern(s: string) {
    var j := IndexOf(s, '(');
    IsWord(s[..j]) && j + 5 <= |s| && s[|s| - 1] == ')'
    && s[j + 1] == '"' && s[|s| - 2] == '"' && IsQuoteFreeName(s[j + 2..|s| - 2])
  }

  /** `DBResource.asKey`: trim, try the numeric-id pattern, then the
      quoted-name pattern; the numeric id must fit in a Java `long`. */
  function AsKey(raw: string): (r: Result<Key, Error>)
    ensures r.Ok? ==> r.value.parent.None? && IsWord(r.value.kind)
  {
    var s := Trim(raw);
    var j := IndexOf(s, '(');
    if MatchesIdPattern(s) then
      var digits := s[j + 1..|s| - 1];
      var n := DigitsValue(digits);
      if n > INT64_MAX then Err(NumberFormat(digits))
      else Ok(Key(s[..j], Numeric(n), None))
    else if MatchesNamePattern(s) then
      Ok(Key(s[..j], Named(s[j + 2..|s| - 2]), None))
    else
      Err(IllegalArgument(MalformedKey, s))
  }

  /** `t` spells `kind(d)` for some non-empty digit run `d` denoting `n`. */
  ghost predicate SpellsNumeric(t: string, kind: string, n: nat) {
    exists d: string :: |d| > 0 && AllDigits(d) && DigitsValue(d) == n && t == kind + "(" + d + ")"
  }

  /** `t` spells `kind("name")`. */
  predicate SpellsNamed(t: string, kind: string, name: string) {
    t == kind + "(\"" + name + "\")"
  }

  /** A word contains no parenthesis, so a `(` right after it is the first. */
  lemma WordThenParen(s: string, w: string)
    requires IsWord(w) && |w| < |s| && s[..|w|] == w && s[|w|] == '('
    ensures IndexOf(s, '(') == |w|
  {
    forall j | 0 <= j < |w|
      ensures s[j] != '('
    {
      assert s[j] == w[j];
    }
    IndexOfIs(s, '(', |w|);
  }

  /** What `asKey` accepts is flat, has a `\w+` kind and is spelled by the
      trimmed input. */
  lemma AsKeySound(raw: string, k: Key)
    requires AsKey(raw) == Ok(k)
    ensures k.parent.None? && IsWord(k.kind)
    ensures match k.id
      case Numeric(n) => n <= INT64_MAX && SpellsNumeric(Trim(raw), k.kind, n)
      case Named(name) => IsQuoteFreeName(name) && SpellsNamed(Trim(raw), k.kind, name)
  {
    var s := Trim(raw);
    var j := IndexOf(s, '(');
    if MatchesIdPattern(s) {
      var d := s[j + 1..|s| - 1];
      assert s == s[..j] + "(" + d + ")";
    } else {
      assert s == s[..j] + "(\"" + s[j + 2..|s| - 2] + "\")";
    }
  }

  /** Every `Kind(digits)` with an in-range id is accepted as a numeric key. */
  lemma AsKeyNumeric(raw: string, kind: string, n: nat)
    requires IsWord(kind) && n <= INT64_MAX && SpellsNumeric(Trim(raw), kind, n)
    ensures AsKey(raw) == Ok(Key(kind, Numeric(n), None))
  {
    var s := Trim(raw);
    var d :| |d| > 0 && AllDigits(d) && DigitsValue(d) == n && s == kind + "(" + d + ")";
    assert s[..|kind|] == kind && s[|kind|] == '(' && s[|s| - 1] == ')';
    WordThenParen(s, kind);
    assert s[|kind| + 1..|s| - 1] == d;
    assert MatchesIdPattern(s);
  }

  /** Every `Kind("name")` with a quote-free name is accepted as a named key. */
  lemma AsKeyNamed(raw: string, kind: string, name: string)
    requires IsWord(kind) && IsQuoteFreeName(name) && SpellsNamed(Trim(raw), kind, name)
    ensures AsKey(raw) == Ok(Key(kind, Named(name), None))
  {
    var s := Trim(raw);
    assert s[..|kind|] == kind && s[|kind|] == '(';
    WordThenParen(s, kind);
    assert s[|kind| + 1] == '"' && s[|s| - 2] == '"' && s[|s| - 1] == ')';
    assert s[|kind| + 1..|s| - 1][0] == '"';
    assert !MatchesIdPattern(s);
    assert s[|kind| + 2..|s| - 2] == name;
    assert MatchesNamePattern(s);
  }

  /** The ad-hoc grammar exactly: `asKey` returns `k` if and only if `k` is
      flat with a `\w+` kind and the trimmed input spells it as `Kind(digits)`
      (id inside the `long` range) or `Kind("name")` (name quote-free and
      non-empty). Everything else, `/`-nested keys included, is rejected. */
  lemma AsKeyAccepts(raw: string, k: Key)
    ensures AsKey(raw) == Ok(k) <==>
      && k.parent.None?
      && IsWord(k.kind)
      && match k.id
         case Numeric(n) => n <= INT64_MAX && SpellsNumeric(Trim(raw), k.kind, n)
         case Named(name) => IsQuoteFreeName(name) && SpellsNamed(Trim(raw), k.kind, name)
  {
    if AsKey(raw) == Ok(k) {
      AsKeySound(raw, k);
    } else if k.parent.None? && IsWord(k.kind) {
      match k.id
      case Numeric(n) =>
        if n <= INT64_MAX && SpellsNumeric(Trim(raw), k.kind, n) {
          AsKeyNumeric(raw, k.kind, n);
        }
      case Named(name) =>
        if IsQuoteFreeName(name) && SpellsNamed(Trim(raw), k.kind, name) {
          AsKeyNamed(raw, k.kind, name);
        }
    }
  }

  // ---------------------------------------------------------------------
  // KEY value grammar: [Parent/]Kind(digits), parsed from the right

  /** `Type.KEY.fromString`: the input must end in `)` and finish with
      `(digits)`; the kind is the text between the last `/` and that `(`,
      and the text before the last `/` is read recursively as the parent. */
  function DecodeKey(s: string): (r: Result<Key, Error>)
    ensures r.Ok? ==> r.value.id.Numeric? && r.value.id.n <= INT64_MAX
    ensures r.Ok? ==> '/' !in r.value.kind
    decreases |s|
  {
    if |s| == 0 then Err(IndexOutOfBounds(s))
    else if s[|s| - 1] != ')' then Err(IllegalArgument(MalformedValue, s))
    else
      var b := DigitRunStart(s, |s| - 1);
      if b == |s| - 1 || b == 0 || s[b - 1] != '(' then Err(UnsupportedOperation(s))
      else
        var digits := s[b..|s| - 1];
        var n := DigitsValue(digits);
        if n > INT64_MAX then Err(NumberFormat(digits))
        else
          var start := b - 1;
          var slash := LastIndexOf(s, '/');
          if slash == -1 then Ok(Key(s[..start], Numeric(n), None))
          else
            assert slash < start;
            match DecodeKey(s[..slash])
            case Err(e) => Err(e)
            case Ok(parent) => Ok(Key(s[slash + 1..start], Numeric(n), Some(parent)))
  }

  /** The rendering the KEY grammar reads: `parent/Kind(id)`. A named leaf
      is rendered as `Kind("name")`, a form the KEY grammar rejects. */
  function Render(k: Key): string {
    var leaf := k.kind + match k.id
      case Numeric(n) => "(" + NatToDigits(n) + ")"
      case Named(name) => "(\"" + name + "\")";
    match k.parent
    case None => leaf
    case Some(p) => Render(p) + "/" + leaf
  }

  /** A chain the KEY grammar can express: every kind non-empty and free of
      `/`, every id numeric and inside the `long` range. */
  predicate ValidChain(k: Key) {
    && |k.kind| > 0
    && '/' !in k.kind
    && k.id.Numeric?
    && k.id.n <= INT64_MAX
    && match k.parent
       case None => true
       case Some(p) => ValidChain(p)
  }

  /** The leaf `kind(digits)` seen from its end: it closes with `)`, its
      trailing digit run is exactly `digits` after a `(`, and it has no `/`. */
  lemma LeafShape(kind: string, digits: string)
    requires |digits| > 0 && AllDigits(digits) && '/' !in kind
    ensures var leaf := kind + "(" + digits + ")";
      && leaf[|leaf| - 1] == ')'
      && leaf[|kind|] == '('
      && leaf[|kind| + 1..|leaf| - 1] == digits
      && leaf[..|kind|] == kind
      && forall j | 0 <= j < |leaf| :: leaf[j] != '/'
  {
    var leaf := kind + "(" + digits + ")";
    assert leaf[..|kind|] == kind;
    forall j | 0 <= j < |leaf|
      ensures leaf[j] != '/'
    {
      if j < |kind| {
        assert leaf[j] == kind[j];
      } else if |kind| < j < |leaf| - 1 {
        assert leaf[j] == digits[j - |kind| - 1];
      }
    }
  }

  /** Where the KEY grammar finds the id in `s = pre + kind(digits)`: the
      digit run before the closing `)` is exactly `digits`, after a `(`. */
  lemma SegmentId(s: string, pre: string, kind: string, digits: string)
    requires |digits| > 0 && AllDigits(digits) && '/' !in kind
    requires s == pre + (kind + "(" + digits + ")")
    ensures s[|s| - 1] == ')'
    ensures DigitRunStart(s, |s| - 1) == |pre| + |kind| + 1
    ensures s[|pre| + |kind|] == '('
    ensures s[|pre| + |kind| + 1..|s| - 1] == digits
  {
    var leaf := kind + "(" + digits + ")";
    LeafShape(kind, digits);
    var e := |s| - 1;
    var b := |pre| + |kind| + 1;
    assert s[|pre|..] == leaf;
    assert s[b..e] == leaf[|kind| + 1..|leaf| - 1];
    DigitRunStartIs(s, e, b);
  }

  /** Where the KEY grammar cuts `s = pre + kind(digits)` into parent and
      kind: the last `/` is the last character of `pre`. */
  lemma SegmentSlash(s: string, pre: string, kind: string, digits: string)
    requires |digits| > 0 && AllDigits(digits) && '/' !in kind
    requires pre == "" || pre[|pre| - 1] == '/'
    requires s == pre + (kind + "(" + digits + ")")
    ensures LastIndexOf(s, '/') == |pre| - 1
    ensures s[|pre|..|pre| + |kind|] == kind
  {
    var leaf := kind + "(" + digits + ")";
    LeafShape(kind, digits);
    forall j | |pre| <= j < |s|
      ensures s[j] != '/'
    {
      assert s[j] == leaf[j - |pre|];
    }
    LastIndexOfIs(s, '/', |pre| - 1);
    assert s[|pre|..|pre| + |kind|] == leaf[..|kind|];
  }

  /** A lone leaf `kind(digits)` is read as a root key. */
  lemma DecodeRoot(s: string, kind: string, digits: string)
    requires |digits| > 0 && AllDigits(digits) && DigitsValue(digits) <= INT64_MAX
    requires '/' !in kind
    requires s == "" + (kind + "(" + digits + ")")
    ensures DecodeKey(s) == Ok(Key(kind, Numeric(DigitsValue(digits)), None))
  {
    SegmentId(s, "", kind, digits);
    SegmentSlash(s, "", kind, digits);
    assert s[..|kind|] == kind;
    DecodeAtRoot(s, |kind| + 1);
  }

  /** `DecodeKey` on an input whose id run starts at `b` and that has no `/`. */
  lemma DecodeAtRoot(s: string, b: nat)
    requires 0 < b < |s| - 1 && s[|s| - 1] == ')' && s[b - 1] == '('
    requires DigitRunStart(s, |s| - 1) == b
    requires DigitsValue(s[b..|s| - 1]) <= INT64_MAX
    requires LastIndexOf(s, '/') == -1
    ensures DecodeKey(s) == Ok(Key(s[..b - 1], Numeric(DigitsValue(s[b..|s| - 1])), None))
  {
  }

  /** `DecodeKey` on an input whose id run starts at `b` and whose last `/`
      is at `slash`: the parent is read from everything before the slash. */
  lemma DecodeAtSlash(s: string, b: nat, slash: nat)
    requires 0 < b < |s| - 1 && s[|s| - 1] == ')' && s[b - 1] == '('
    requires DigitRunStart(s, |s| - 1) == b
    requires DigitsValue(s[b..|s| - 1]) <= INT64_MAX
    requires LastIndexOf(s, '/') == slash
    ensures slash < b - 1
    ensures DecodeKey(s) ==
      match DecodeKey(s[..slash])
      case Err(e) => Err(e)
      case Ok(p) => Ok(Key(s[slash + 1..b - 1], Numeric(DigitsValue(s[b..|s| - 1])), Some(p)))
  {
  }

  /** One step of the KEY grammar: a leaf `kind(digits)` after a prefix
      ending in `/` is read as that leaf over whatever the prefix (without
      its `/`) reads as. */
  lemma DecodeSegment(s: string, pre: string, kind: string, digits: string)
    requires |digits| > 0 && AllDigits(digits) && DigitsValue(digits) <= INT64_MAX
    requires '/' !in kind
    requires pre != "" && pre[|pre| - 1] == '/'
    requires s == pre + (kind + "(" + digits + ")")
    ensures DecodeKey(s) ==
      match DecodeKey(pre[..|pre| - 1])
      case Err(e) => Err(e)
      case Ok(p) => Ok(Key(kind, Numeric(DigitsValue(digits)), Some(p)))
  {
    SegmentId(s, pre, kind, digits);
    SegmentSlash(s, pre, kind, digits);
    var b := |pre| + |kind| + 1;
    var slash := |pre| - 1;
    assert s[..slash] == pre[..slash];
    assert s[slash + 1..b - 1] == kind;
    DecodeAtSlash(s, b, slash);
  }

  /** Reading a rendered chain gives the chain back. */
  lemma {:induction false} KeyRoundTrip(k: Key)
    requires ValidChain(k)
    ensures DecodeKey(Render(k)) == Ok(k)
  {
    var digits := NatToDigits(k.id.n);
    match k.parent
    case None =>
      assert Render(k) == "" + (k.kind + "(" + digits + ")");
      DecodeRoot(Render(k), k.kind, digits);
    case Some(p) =>
      var pre := Render(p) + "/";
      assert Render(k) == pre + (k.kind + "(" + digits + ")");
      DecodeSegment(Render(k), pre, k.kind, digits);
      assert pre[..|pre| - 1] == Render(p);
      KeyRoundTrip(p);
  }

  /** `leaf` is `kind(digits)` for a non-empty digit run denoting `n`;
      the run may carry leading zeros. */
  predicate LeafSpells(leaf: string, kind: string, n: nat) {
    && |leaf| >= |kind| + 3
    && leaf[..|kind|] == kind
    && leaf[|kind|] == '('
    && leaf[|leaf| - 1] == ')'
    && AllDigits(leaf[|kind| + 1..|leaf| - 1])
    && DigitsValue(leaf[|kind| + 1..|leaf| - 1]) == n
  }

  /** `s` spells the numeric chain `k` the way `Render` does, up to leading
      zeros in the ids: the text after the last `/` spells the leaf, and a
      parent is spelled by the text before that `/`, a root by no `/` at all. */
  predicate SpellsChain(s: string, k: Key)
    decreases k
  {
    && k.id.Numeric?
    && var slash := LastIndexOf(s, '/');
       && LeafSpells(s[slash + 1..], k.kind, k.id.n)
       && match k.parent
          case None => slash == -1
          case Some(p) => slash >= 0 && SpellsChain(s[..slash], p)
  }

  /** Every numeric id along the chain fits in a `long`. */
  predicate IdsInLongRange(k: Key)
    decreases k
  {
    && (k.id.Numeric? ==> k.id.n <= INT64_MAX)
    && match k.parent
       case None => true
       case Some(p) => IdsInLongRange(p)
  }

  /** Every input the KEY grammar accepts spells the key it is read as:
      nothing but `parent/Kind(digits)` text gets through. */
  lemma {:induction false} DecodeKeySpells(s: string)
    requires DecodeKey(s).Ok?
    ensures SpellsChain(s, DecodeKey(s).value) && IdsInLongRange(DecodeKey(s).value)
    decreases |s|
  {
    var b := DigitRunStart(s, |s| - 1);
    var n := DigitsValue(s[b..|s| - 1]);
    var slash := LastIndexOf(s, '/');
    var kind := s[slash + 1..b - 1];
    ReadLeaf(s, b, slash);
    if slash == -1 {
      DecodeAtRoot(s, b);
      assert s[..b - 1] == kind;
    } else {
      DecodeAtSlash(s, b, slash);
      DecodeKeySpells(s[..slash]);
    }
  }

  /** The leaf the KEY grammar reads, from the id run at `b` and the last
      `/` at `slash`, spells the kind between them and the run's value. */
  lemma ReadLeaf(s: string, b: nat, slash: int)
    requires 0 < b < |s| - 1 && s[|s| - 1] == ')' && s[b - 1] == '('
    requires AllDigits(s[b..|s| - 1])
    requires -1 <= slash < b - 1
    ensures LeafSpells(s[slash + 1..], s[slash + 1..b - 1], DigitsValue(s[b..|s| - 1]))
  {
    var leaf := s[slash + 1..];
    var kind := s[slash + 1..b - 1];
    assert leaf[..|kind|] == kind;
    assert leaf[|kind|] == s[b - 1];
    assert leaf[|kind| + 1..|leaf| - 1] == s[b..|s| - 1];
  }

  /** A spelled leaf after the last `/` at `slash`: the kind has no `/`, and
      `s` is the text up to that `/` followed by `kind(digits)`. */
  lemma SpelledLeaf(s: string, slash: int, kind: string, n: nat) returns (digits: string)
    requires -1 <= slash < |s| && forall j | slash < j < |s| :: s[j] != '/'
    requires LeafSpells(s[slash + 1..], kind, n)
    ensures |digits| > 0 && AllDigits(digits) && DigitsValue(digits) == n
    ensures '/' !in kind
    ensures s == s[..slash + 1] + (kind + "(" + digits + ")")
  {
    var leaf := s[slash + 1..];
    digits := leaf[|kind| + 1..|leaf| - 1];
    assert leaf == kind + "(" + digits + ")";
    forall j | 0 <= j < |kind|
      ensures kind[j] != '/'
    {
      assert kind[j] == s[slash + 1 + j];
    }
  }

  /** Conversely, every spelling of a chain whose ids fit in a `long` is
      read as that chain, leading zeros and all. */
  lemma {:induction false} SpellsDecode(s: string, k: Key)
    requires SpellsChain(s, k) && IdsInLongRange(k)
    ensures DecodeKey(s) == Ok(k)
    decreases k
  {
    var slash := LastIndexOf(s, '/');
    match k.parent
    case None =>
      DecodeSpelledRoot(s, slash, k);
    case Some(p) =>
      SpellsDecode(s[..slash], p);
      DecodeUnder(s, slash, k, p);
  }

  /** A spelled leaf with no `/` before it is read as a root key. */
  lemma DecodeSpelledRoot(s: string, slash: int, k: Key)
    requires slash == -1 && forall j | slash < j < |s| :: s[j] != '/'
    requires k.id.Numeric? && k.id.n <= INT64_MAX && k.parent.None?
    requires LeafSpells(s[slash + 1..], k.kind, k.id.n)
    ensures DecodeKey(s) == Ok(k)
  {
    var digits := SpelledLeaf(s, slash, k.kind, k.id.n);
    assert s[..slash + 1] == "";
    DecodeRoot(s, k.kind, digits);
  }

  /** A spelled leaf after the last `/`, over a prefix read as `p`. */
  lemma DecodeUnder(s: string, slash: int, k: Key, p: Key)
    requires 0 <= slash < |s| && s[slash] == '/' && forall j | slash < j < |s| :: s[j] != '/'
    requires k.id.Numeric? && k.id.n <= INT64_MAX && k.parent == Some(p)
    requires LeafSpells(s[slash + 1..], k.kind, k.id.n)
    requires DecodeKey(s[..slash]) == Ok(p)
    ensures DecodeKey(s) == Ok(k)
  {
    var digits := SpelledLeaf(s, slash, k.kind, k.id.n);
    var pre := s[..slash + 1];
    DecodeSegment(s, pre, k.kind, digits);
    assert pre[..|pre| - 1] == s[..slash];
  }

  /** A chain whose last segment has a name fails with the "string key names
      not supported" outcome. */
  lemma NamedLeafUnsupported(k: Key)
    requires k.id.Named?
    ensures DecodeKey(Render(k)) == Err(UnsupportedOperation(Render(k)))
  {
    var s := Render(k);
    assert s[|s| - 1] == ')' && s[|s| - 2] == '"';
  }

  /** A value with no `)` at all is never a key: the empty string fails on
      `charAt(-1)`, any other on the trailing-`)` check. */
  lemma NoParenNoKey(v: string)
    requires ')' !in v
    ensures DecodeKey(v).Err?
    ensures DecodeKey(v) == (if v == "" then Err(IndexOutOfBounds(v)) else Err(IllegalArgument(MalformedValue, v)))
  {
    if v != "" { assert v[|v| - 1] in v; }
  }

  /** A root key the ad-hoc grammar can spell is read back from its own
      rendering: `asKey` inverts the `Kind(id)` / `Kind("name")` form. */
  lemma AsKeyReadsRender(k: Key)
    requires k.parent.None? && IsWord(k.kind)
    requires k.id.Numeric? ==> k.id.n <= INT64_MAX
    requires k.id.Named? ==> IsQuoteFreeName(k.id.name)
    ensures AsKey(Render(k)) == Ok(k)
  {
    var s := Render(k);
    assert s[0] == k.kind[0];
    TrimNoop(s);
    match k.id
    case Numeric(n) =>
      var d := NatToDigits(n);
      assert s == k.kind + "(" + d + ")";
      assert SpellsNumeric(s, k.kind, n);
      AsKeyNumeric(s, k.kind, n);
    case Named(name) =>
      assert SpellsNamed(s, k.kind, name);
      AsKeyNamed(s, k.kind, name);
  }
}

=== FILE: queries.dfy ===
/** `DBResource.createQuery` and `createFetchOptions`: the query every
    endpoint runs, built from the `kind`, `ancestor` and filter parameters,
    and the paging options built from `limit`. */
module Queries {
  import opened Base
  import opened Strings
  import opened Keys
  import opened ValueType
  import opened Filters

  /** The parts of a store query the endpoints set: an optional kind, an
      optional ancestor key and an optional filter. */
  datatype Query = Query(kind: Option<string>, ancestor: Option<Key>, filter: Option<Filter>)

  /** The ancestor a non-empty `ancestor` parameter stands for. */
  function Ancestor(ancestor: string): Result<Option<Key>, Error> {
    if ancestor == "" then Ok(None)
    else
      match AsKey(ancestor)
      case Err(e) => Err(e)
      case Ok(k) => Ok(Some(k))
  }

  /** `createQuery`: at least one of kind and ancestor is required; the
      ancestor is read by `asKey` before any filter is looked at. */
  function CreateQuery(ps: Parsers, kind: string, ancestor: string, filters: seq<string>): (r: Result<Query, Error>)
    ensures kind == "" && ancestor == "" ==> r == Err(IllegalArgument(MissingKindOrAncestor, ""))
    ensures ancestor != "" && AsKey(ancestor).Err? ==> r == Err(AsKey(ancestor).error)
    ensures (kind != "" || ancestor != "") && (ancestor == "" || AsKey(ancestor).Ok?) && r.Err? ==>
      FirstFailure(ps, filters, r.error)
    ensures r.Ok? <==>
      && (kind != "" || ancestor != "")
      && (ancestor == "" || AsKey(ancestor).Ok?)
      && forall i | 0 <= i < |filters| :: ParseFilter(ps, filters[i]).Ok?
    ensures r.Ok? ==>
      && (r.value.kind.None? <==> kind == "")
      && (r.value.kind.Some? ==> r.value.kind.value == kind)
      && (r.value.ancestor.None? <==> ancestor == "")
      && (r.value.ancestor.Some? ==> AsKey(ancestor) == Ok(r.value.ancestor.value))
      && Applied(r.value.filter) == ParsePredicates(ps, filters).value
  {
    if ancestor == "" && kind == "" then Err(IllegalArgument(MissingKindOrAncestor, ""))
    else
      match Ancestor(ancestor)
      case Err(e) => Err(e)
      case Ok(a) =>
        var k := if kind == "" then None else Some(kind);
        match AddFilters(ps, filters)
        case Err(e) => Err(e)
        case Ok(f) => Ok(Query(k, a, f))
  }

  /** An ancestor written in the `Kind(id)` or `Kind("name")` form selects
      exactly that key, with or without a kind. */
  lemma AncestorQuery(ps: Parsers, kind: string, k: Key)
    requires k.parent.None? && IsWord(k.kind)
    requires k.id.Numeric? ==> k.id.n <= INT64_MAX
    requires k.id.Named? ==> IsQuoteFreeName(k.id.name)
    ensures CreateQuery(ps, kind, Render(k), []).Ok?
    ensures CreateQuery(ps, kind, Render(k), []).value.ancestor == Some(k)
    ensures CreateQuery(ps, kind, Render(k), []).value.filter.None?
  {
    AsKeyReadsRender(k);
    assert Render(k) != "";
  }

  /** The paging options: the result limit and the batch size. */
  datatype FetchOptions = FetchOptions(limit: Int32, chunkSize: Int32)

  /** `createFetchOptions`: the batch size is the limit below 1000 and a
      tenth of it (Java `int` division) from 1000 on. */
  function CreateFetchOptions(limit: Int32): (r: FetchOptions)
    ensures r.limit == limit
    ensures limit < 1000 ==> r.chunkSize == limit
    ensures limit >= 1000 ==> 10 * r.chunkSize <= limit < 10 * r.chunkSize + 10
    ensures limit >= 1 ==> 1 <= r.chunkSize <= limit
  {
    FetchOptions(limit, if limit < 1000 then limit else limit / 10)
  }
}

=== FILE: rows.dfy ===
/** `DBResource.toRowValue` and the row loop of `DBResource.list`: every
    stored value is rendered as a string of at most 2048 characters with the
    tag of its class, and every entity becomes a row that maps property
    names to rendered values, the entity's own key first. */
module Rows {
  import opened Base
  import opened Strings
  import opened Keys
  import opened ValueType

  const MAX_VALUE_LENGTH: nat := 2048

  /** The classes other than the two `toRowValue` singles out. */
  type PlainClass = c: NativeClass | c != DateClass && c != EmbeddedEntityClass witness StringClass

  /** A stored property value. Every non-null value carries its own
      `toString` text, which is what `String.valueOf` gives for it. */
  datatype Native =
    | NullNative
    | DateNative(millis: int, text: string)
    | EmbeddedNative(props: seq<(string, Native)>, text: string)
    | ObjectNative(cls: PlainClass, text: string)

  /** The library renderings the model leaves abstract: Joda's ISO
      date-time printer on an instant in milliseconds, and `Key.toString`. */
  datatype Printers = Printers(iso: int -> string, keyText: Key -> string)

  /** What the client receives for one value: its text and its tag, where
      `None` is the `null` type of a class no tag lists. */
  datatype RowValue = RowValue(value: string, tag: Option<Tag>)

  /** `String.valueOf(v)`. */
  function StringOf(v: Native): string {
    if v.NullNative? then "null" else v.text
  }

  /** One `key: value` line per property of an embedded entity. */
  function EmbeddedBody(props: seq<(string, Native)>): string {
    if |props| == 0 then ""
    else props[0].0 + ": " + StringOf(props[0].1) + "\n" + EmbeddedBody(props[1..])
  }

  /** The text before truncation. */
  function ValueText(pr: Printers, v: Native): string {
    match v
    case NullNative => "null"
    case DateNative(ms, _) => pr.iso(ms)
    case EmbeddedNative(props, _) => "<EmbeddedEntity:\n" + EmbeddedBody(props) + ">"
    case ObjectNative(_, text) => text
  }

  /** The tag: `NULL` for null, otherwise `Type.fromClass` of the value's class. */
  function TagOf(v: Native): Option<Tag> {
    match v
    case NullNative => Some(Null)
    case DateNative(_, _) => FromClass(DateClass)
    case EmbeddedNative(_, _) => FromClass(EmbeddedEntityClass)
    case ObjectNative(c, _) => FromClass(c)
  }

  /** Cut to the first 2048 characters. */
  function Truncate(s: string): (r: string)
    ensures |r| <= MAX_VALUE_LENGTH
    ensures |r| <= |s| && r == s[..|r|]
    ensures |s| <= MAX_VALUE_LENGTH ==> r == s
    ensures |s| > MAX_VALUE_LENGTH ==> |r| == MAX_VALUE_LENGTH
  {
    if |s| > MAX_VALUE_LENGTH then s[..MAX_VALUE_LENGTH] else s
  }

  /** `toRowValue`. */
  function ToRowValue(pr: Printers, v: Native): RowValue {
    RowValue(Truncate(ValueText(pr, v)), TagOf(v))
  }

  /** The value text is the rendering cut to 2048 characters; null is the
      text `null` with the NULL tag. */
  lemma RowValueText(pr: Printers, v: Native)
    ensures |ToRowValue(pr, v).value| <= MAX_VALUE_LENGTH
    ensures ToRowValue(pr, v).value == ValueText(pr, v)[..|ToRowValue(pr, v).value|]
    ensures |ValueText(pr, v)| <= MAX_VALUE_LENGTH ==> ToRowValue(pr, v).value == ValueText(pr, v)
    ensures v.NullNative? ==> ToRowValue(pr, v) == RowValue("null", Some(Null))
  {
  }

  /** The tag is NULL exactly for a null value; a date is DATETIME, an
      embedded entity EMBEDDED_ENTITY, and any other value has the tag that
      lists its class, or none when no tag does. */
  lemma RowValueTag(pr: Printers, v: Native)
    ensures ToRowValue(pr, v).tag == Some(Null) <==> v.NullNative?
    ensures v.DateNative? ==> ToRowValue(pr, v).tag == Some(DateTime)
    ensures v.EmbeddedNative? ==> ToRowValue(pr, v).tag == Some(EmbeddedEntity)
    ensures v.ObjectNative? ==>
      forall t: Tag :: ToRowValue(pr, v).tag == Some(t) <==> v.cls in Classes(t)
  {
    TagOfSpec(v);
  }

  /** The tag of a value, independent of how the value is printed. */
  lemma TagOfSpec(v: Native)
    ensures TagOf(v) == Some(Null) <==> v.NullNative?
    ensures v.DateNative? ==> TagOf(v) == Some(DateTime)
    ensures v.EmbeddedNative? ==> TagOf(v) == Some(EmbeddedEntity)
    ensures v.ObjectNative? ==> forall t: Tag :: TagOf(v) == Some(t) <==> v.cls in Classes(t)
  {
    FromClassSpec(DateClass, DateTime);
    FromClassSpec(EmbeddedEntityClass, EmbeddedEntity);
    if v.ObjectNative? {
      FromClassSpec(v.cls, Null);
      forall t: Tag
        ensures TagOf(v) == Some(t) <==> v.cls in Classes(t)
      {
        FromClassSpec(v.cls, t);
      }
    }
  }

  /** An entity's key is rendered by `Key.toString` with the KEY tag. */
  lemma KeyRowValue(pr: Printers, k: Key)
    ensures ToRowValue(pr, ObjectNative(KeyClass, pr.keyText(k))).tag == Some(KeyTag)
  {
    FromClassSpec(KeyClass, KeyTag);
  }

  /** The lines of an embedded entity's rendering. */
  function EmbeddedLines(props: seq<(string, Native)>): seq<string> {
    seq(|props|, i requires 0 <= i < |props| => props[i].0 + ": " + StringOf(props[i].1))
  }

  predicate NoNewline(s: string) {
    forall i | 0 <= i < |s| :: s[i] != '\n'
  }

  /** When neither a name nor a value text holds a line break, the embedded
      rendering splits back into one `name: value` line per property, in
      order, followed by the empty piece after the last line break. */
  lemma {:induction false} EmbeddedBodySplits(props: seq<(string, Native)>)
    requires forall i | 0 <= i < |props| :: NoNewline(props[i].0) && NoNewline(StringOf(props[i].1))
    ensures Split(EmbeddedBody(props), '\n') == EmbeddedLines(props) + [""]
  {
    if |props| > 0 {
      BodyStep(props);
      EmbeddedBodySplits(props[1..]);
      LinesStep(props);
    }
  }

  /** The first line splits off the rendering. */
  lemma BodyStep(props: seq<(string, Native)>)
    requires |props| > 0 && NoNewline(props[0].0) && NoNewline(StringOf(props[0].1))
    ensures Split(EmbeddedBody(props), '\n') ==
      [props[0].0 + ": " + StringOf(props[0].1)] + Split(EmbeddedBody(props[1..]), '\n')
  {
    var line := props[0].0 + ": " + StringOf(props[0].1);
    var rest := EmbeddedBody(props[1..]);
    LineNoNewline(props[0].0, StringOf(props[0].1));
    assert EmbeddedBody(props) == line + ['\n'] + rest;
    SplitFirst(line, rest, '\n');
  }

  lemma LinesStep(props: seq<(string, Native)>)
    requires |props| > 0
    ensures EmbeddedLines(props) == [props[0].0 + ": " + StringOf(props[0].1)] + EmbeddedLines(props[1..])
  {
  }

  /** A `name: value` line has no line break when its parts have none. */
  lemma LineNoNewline(name: string, text: string)
    requires NoNewline(name) && NoNewline(text)
    ensures '\n' !in name + ": " + text
  {
    var line := name + ": " + text;
    forall j | 0 <= j < |line|
      ensures line[j] != '\n'
    {
      if j < |name| {
        assert line[j] == name[j];
      } else if j >= |name| + 2 {
        assert line[j] == text[j - |name| - 2];
      }
    }
  }

  // ---------------------------------------------------------------------
  // Rows: insertion-ordered maps from property name to rendered value

  /** `Row extends LinkedHashMap<String, Value>`: entries in insertion order. */
  type Row = seq<(string, RowValue)>

  predicate DistinctNames(row: Row) {
    forall i, j | 0 <= i < j < |row| :: row[i].0 != row[j].0
  }

  /** Position of the entry named `n`, or `|row|`. */
  function Position(row: Row, n: string): (i: nat)
    ensures i <= |row|
    ensures i < |row| ==> row[i].0 == n
    ensures forall j | 0 <= j < i :: row[j].0 != n
  {
    if |row| == 0 then 0 else if row[0].0 == n then 0 else 1 + Position(row[1..], n)
  }

  lemma PositionIs(row: Row, n: string, i: nat)
    requires i <= |row|
    requires i < |row| ==> row[i].0 == n
    requires forall j | 0 <= j < i :: row[j].0 != n
    ensures Position(row, n) == i
  {
  }

  /** `get(n)`. */
  function Get(row: Row, n: string): Option<RowValue> {
    var i := Position(row, n);
    if i < |row| then Some(row[i].1) else None
  }

  /** `put(n, v)`: afterwards `n` holds `v` and every other name holds
      what it held before. */
  function Put(row: Row, n: string, v: RowValue): (r: Row)
    ensures Get(r, n) == Some(v)
    ensures forall m | m != n :: Get(r, m) == Get(row, m)
  {
    var i := Position(row, n);
    var r := if i < |row| then row[i := (n, v)] else row + [(n, v)];
    assert forall j | 0 <= j < |row| && j != i :: r[j] == row[j];
    PositionIs(r, n, i);
    forall m | m != n
      ensures Get(r, m) == Get(row, m)
    {
      var k := Position(row, m);
      if k < |row| {
        PositionIs(r, m, k);
      } else {
        PositionIs(r, m, |r|);
      }
    }
    r
  }

  /** An existing entry keeps its place and takes the new value; a new name
      is appended; so names stay distinct and in place. */
  lemma PutShape(row: Row, n: string, v: RowValue)
    ensures DistinctNames(row) ==> DistinctNames(Put(row, n, v))
    ensures Get(row, n).None? ==> Put(row, n, v) == row + [(n, v)]
    ensures Get(row, n).Some? ==> |Put(row, n, v)| == |row|
    ensures |row| <= |Put(row, n, v)| && forall j | 0 <= j < |row| :: Put(row, n, v)[j].0 == row[j].0
  {
    var i := Position(row, n);
    var r := Put(row, n, v);
    assert r == if i < |row| then row[i := (n, v)] else row + [(n, v)];
  }

  // ---------------------------------------------------------------------
  // The row loop of `list`

  /** An entity as the query returns it: its key and its properties in the
      order `getProperties().keySet()` iterates them. */
  datatype Entity = Entity(key: Key, props: seq<(string, Native)>)

  /** The `__key__` entry's value: the key's text with the KEY tag. */
  function KeyEntryValue(pr: Printers, e: Entity): RowValue {
    ToRowValue(pr, ObjectNative(KeyClass, pr.keyText(e.key)))
  }

  /** The properties rendered in order. */
  function Rendered(pr: Printers, props: seq<(string, Native)>): Row {
    seq(|props|, i requires 0 <= i < |props| => (props[i].0, ToRowValue(pr, props[i].1)))
  }

  /** What the row loop puts, in order: the key entry, then each property. */
  function Puts(pr: Printers, e: Entity): Row {
    [(KEY_PROPERTY, KeyEntryValue(pr, e))] + Rendered(pr, e.props)
  }

  /** No property repeats a name or takes the key's. */
  predicate FreshNames(props: seq<(string, Native)>) {
    && (forall i | 0 <= i < |props| :: props[i].0 != KEY_PROPERTY)
    && (forall i, j | 0 <= i < j < |props| :: props[i].0 != props[j].0)
  }

  /** The entries put one after another into an empty row. */
  function PutAll(puts: Row): Row {
    if |puts| == 0 then []
    else Put(PutAll(puts[..|puts| - 1]), puts[|puts| - 1].0, puts[|puts| - 1].1)
  }

  /** Last write wins: the value of the last entry named `n`, if any. */
  function LastPut(puts: Row, n: string): Option<RowValue> {
    if |puts| == 0 then None
    else if puts[|puts| - 1].0 == n then Some(puts[|puts| - 1].1)
    else LastPut(puts[..|puts| - 1], n)
  }

  /** Each name holds the last value put under it. */
  lemma {:induction false} PutAllGet(puts: Row, n: string)
    ensures Get(PutAll(puts), n) == LastPut(puts, n)
  {
    if |puts| > 0 {
      PutAllGet(puts[..|puts| - 1], n);
    }
  }

  /** Names stay distinct, and the first name put stays first. */
  lemma {:induction false} PutAllShape(puts: Row)
    ensures DistinctNames(PutAll(puts))
    ensures |puts| > 0 ==> |PutAll(puts)| > 0 && PutAll(puts)[0].0 == puts[0].0
  {
    if |puts| > 0 {
      var init := puts[..|puts| - 1];
      PutAllShape(init);
      PutShape(PutAll(init), puts[|puts| - 1].0, puts[|puts| - 1].1);
    }
  }

  /** A name never put has no value. */
  lemma {:induction false} LastPutAbsent(puts: Row, n: string)
    requires forall i | 0 <= i < |puts| :: puts[i].0 != n
    ensures LastPut(puts, n).None?
  {
    if |puts| > 0 {
      LastPutAbsent(puts[..|puts| - 1], n);
    }
  }

  /** A name put only first keeps that first value. */
  lemma {:induction false} LastPutFirst(puts: Row, n: string)
    requires |puts| > 0 && puts[0].0 == n
    requires forall i | 0 < i < |puts| :: puts[i].0 != n
    ensures LastPut(puts, n) == Some(puts[0].1)
  {
    if |puts| > 1 {
      LastPutFirst(puts[..|puts| - 1], n);
    }
  }

  /** With distinct names every put appends, so the row is the entries. */
  lemma {:induction false} PutAllFresh(puts: Row)
    ensures DistinctNames(puts) ==> PutAll(puts) == puts
  {
    if |puts| > 0 && DistinctNames(puts) {
      var init := puts[..|puts| - 1];
      var (n, v) := puts[|puts| - 1];
      PutAllFresh(init);
      PutAllGet(init, n);
      LastPutAbsent(init, n);
      PutShape(init, n, v);
    }
  }

  /** Fresh property names make every entry's name distinct. */
  lemma FreshDistinct(pr: Printers, e: Entity)
    ensures FreshNames(e.props) ==> DistinctNames(Puts(pr, e))
  {
    var puts := Puts(pr, e);
    assert forall i | 0 < i < |puts| :: puts[i].0 == e.props[i - 1].0;
  }

  /** One row of `list`: the key under `__key__`, then every property put
      in order. The key entry stays first and names are distinct. */
  function EntityRow(pr: Printers, e: Entity): (row: Row)
    ensures |row| > 0 && row[0].0 == KEY_PROPERTY
    ensures DistinctNames(row)
  {
    PutAllShape(Puts(pr, e));
    PutAll(Puts(pr, e))
  }

  /** Each name of the row holds the last value put under it. */
  lemma EntityRowGet(pr: Printers, e: Entity, n: string)
    ensures Get(EntityRow(pr, e), n) == LastPut(Puts(pr, e), n)
  {
    PutAllGet(Puts(pr, e), n);
  }

  /** With fresh names the row is exactly what was put: the key entry,
      then the properties in order. */
  lemma EntityRowFresh(pr: Printers, e: Entity)
    ensures FreshNames(e.props) ==> EntityRow(pr, e) == Puts(pr, e)
  {
    FreshDistinct(pr, e);
    PutAllFresh(Puts(pr, e));
  }

  /** The key entry comes first whatever the properties are; it keeps the
      key's own value unless a property named `__key__` overwrites it in
      place. */
  lemma KeyEntryFirst(pr: Printers, e: Entity)
    ensures EntityRow(pr, e)[0].0 == KEY_PROPERTY
    ensures Some(EntityRow(pr, e)[0].1) == LastPut(Puts(pr, e), KEY_PROPERTY)
    ensures (forall i | 0 <= i < |e.props| :: e.props[i].0 != KEY_PROPERTY) ==>
      EntityRow(pr, e)[0].1 == KeyEntryValue(pr, e)
  {
    var row := EntityRow(pr, e);
    PositionIs(row, KEY_PROPERTY, 0);
    EntityRowGet(pr, e, KEY_PROPERTY);
    var puts := Puts(pr, e);
    if forall i | 0 <= i < |e.props| :: e.props[i].0 != KEY_PROPERTY {
      assert forall i | 0 < i < |puts| :: puts[i].0 == e.props[i - 1].0;
      LastPutFirst(puts, KEY_PROPERTY);
    }
  }

  /** The `list` loop: one row per entity, in the order the query yields them. */
  function ListRows(pr: Printers, entities: seq<Entity>): (rows: seq<Row>)
    ensures |rows| == |entities|
    ensures forall i | 0 <= i < |rows| :: rows[i] == EntityRow(pr, entities[i])
  {
    if |entities| == 0 then [] else [EntityRow(pr, entities[0])] + ListRows(pr, entities[1..])
  }
}

=== FILE: strings.dfy ===
/** Character classes and string operations of the Java and JavaScript
    runtimes that the translation layer relies on, restricted to what the
    layer uses: ASCII digits, `\w`, `String.trim`, ASCII case folding,
    `indexOf`/`lastIndexOf`, Guava's `Splitter.on(c)` and decimal parsing. */
module Strings {
  import opened Base

  predicate IsDigit(c: char) { '0' <= c <= '9' }

  /** Java's `\w` without UNICODE_CHARACTER_CLASS: `[a-zA-Z_0-9]`. */
  predicate IsWordChar(c: char) {
    ('a' <= c <= 'z') || ('A' <= c <= 'Z') || IsDigit(c) || c == '_'
  }

  predicate AllDigits(s: string) {
    forall i | 0 <= i < |s| :: IsDigit(s[i])
  }

  /** A non-empty run of `\w`, as matched by `(\w+)`. */
  predicate IsWord(s: string) {
    |s| > 0 && forall i | 0 <= i < |s| :: IsWordChar(s[i])
  }

  /** The characters `String.trim` removes: every code point up to U+0020. */
  predicate IsTrimmable(c: char) { c <= ' ' }

  function DigitValue(c: char): nat
    requires IsDigit(c)
  {
    c as int - '0' as int
  }

  /** The number a run of decimal digits denotes (leading zeros allowed). */
  function DigitsValue(s: string): nat
    requires AllDigits(s)
  {
    if |s| == 0 then 0 else 10 * DigitsValue(s[..|s| - 1]) + DigitValue(s[|s| - 1])
  }

  /** Decimal rendering without leading zeros. */
  function NatToDigits(n: nat): (r: string)
    ensures |r| > 0 && AllDigits(r)
    ensures DigitsValue(r) == n
    decreases n
  {
    var d := [('0' as int + n % 10) as char];
    if n < 10 then d
    else
      var r := NatToDigits(n / 10) + d;
      assert r[..|r| - 1] == NatToDigits(n / 10);
      r
  }

  function IntToString(n: int): string {
    if n < 0 then "-" + NatToDigits(-n) else NatToDigits(n)
  }

  /** `s` is a decimal numeral for `v`: one or more ASCII digits, bare or
      after a `+` or a `-`. Leading zeros and `-0` are allowed. */
  predicate SpellsSigned(s: string, v: int) {
    || (|s| > 0 && AllDigits(s) && v == DigitsValue(s))
    || (|s| > 1 && s[0] == '+' && AllDigits(s[1..]) && v == DigitsValue(s[1..]))
    || (|s| > 1 && s[0] == '-' && AllDigits(s[1..]) && v == -(DigitsValue(s[1..]) as int))
  }

  /** `Long.parseLong` (lo, hi = the `long` bounds) and `Integer.parseInt`
      (the `int` bounds): an optional sign, at least one digit, and a value
      inside the bounds. `None` is the `NumberFormatException`. */
  function ParseSigned(s: string, lo: int, hi: int): (r: Option<int>)
    ensures r.Some? ==> lo <= r.value <= hi && SpellsSigned(s, r.value)
    ensures forall v | SpellsSigned(s, v) && lo <= v <= hi :: r == Some(v)
  {
    if |s| == 0 then None
    else
      var body := if s[0] == '-' || s[0] == '+' then s[1..] else s;
      if |body| == 0 || !AllDigits(body) then None
      else
        var v: int := if s[0] == '-' then -(DigitsValue(body) as int) else DigitsValue(body);
        if lo <= v <= hi then Some(v) else None
  }

  /** Parsing reads back every in-range number rendered in decimal. */
  lemma ParseSignedRoundTrip(n: int, lo: int, hi: int)
    requires lo <= n <= hi
    ensures ParseSigned(IntToString(n), lo, hi) == Some(n)
  {
    var s := IntToString(n);
    if n < 0 {
      assert s[1..] == NatToDigits(-n);
    } else {
      var r := NatToDigits(n);
      assert IsDigit(r[0]);
    }
  }

  function UpperChar(c: char): char {
    if 'a' <= c <= 'z' then (c as int - 32) as char else c
  }

  /** ASCII upper-casing; other characters are left as they are. */
  function Upper(s: string): (r: string)
    ensures |r| == |s|
    ensures forall i | 0 <= i < |s| :: r[i] == UpperChar(s[i])
  {
    seq(|s|, i requires 0 <= i < |s| => UpperChar(s[i]))
  }

  /** `equalsIgnoreCase`, ASCII only. */
  predicate EqualsIgnoreCase(a: string, b: string) {
    Upper(a) == Upper(b)
  }

  function TrimStart(s: string): string {
    if |s| > 0 && IsTrimmable(s[0]) then TrimStart(s[1..]) else s
  }

  function TrimEnd(s: string): string {
    if |s| > 0 && IsTrimmable(s[|s| - 1]) then TrimEnd(s[..|s| - 1]) else s
  }

  /** `String.trim`. */
  function Trim(s: string): string {
    TrimEnd(TrimStart(s))
  }

  /** A string with no trimmable character at either end is its own trim. */
  lemma TrimNoop(s: string)
    requires |s| > 0 && !IsTrimmable(s[0]) && !IsTrimmable(s[|s| - 1])
    ensures Trim(s) == s
  {
  }

  /** `s.indexOf(c)`, with `|s|` standing for "not found". */
  function IndexOf(s: string, c: char): (i: nat)
    ensures i <= |s|
    ensures i < |s| ==> s[i] == c
    ensures forall j | 0 <= j < i :: s[j] != c
  {
    if |s| == 0 then 0 else if s[0] == c then 0 else 1 + IndexOf(s[1..], c)
  }

  /** `s.lastIndexOf(c)`, with -1 standing for "not found". */
  function LastIndexOf(s: string, c: char): (i: int)
    ensures -1 <= i < |s|
    ensures i >= 0 ==> s[i] == c
    ensures forall j | i < j < |s| :: s[j] != c
  {
    if |s| == 0 then -1 else if s[|s| - 1] == c then |s| - 1 else LastIndexOf(s[..|s| - 1], c)
  }

  /** The first occurrence is determined by the characters before it. */
  lemma IndexOfIs(s: string, c: char, i: nat)
    requires i <= |s|
    requires i < |s| ==> s[i] == c
    requires forall j | 0 <= j < i :: s[j] != c
    ensures IndexOf(s, c) == i
  {
  }

  /** The last occurrence is determined by the characters after it. */
  lemma LastIndexOfIs(s: string, c: char, i: int)
    requires -1 <= i < |s|
    requires i >= 0 ==> s[i] == c
    requires forall j | i < j < |s| :: s[j] != c
    ensures LastIndexOf(s, c) == i
  {
  }

  /** Start of the longest run of digits that ends just before index `e`. */
  function DigitRunStart(s: string, e: nat): (b: nat)
    requires e <= |s|
    ensures b <= e
    ensures AllDigits(s[b..e])
    ensures b == 0 || !IsDigit(s[b - 1])
  {
    if e == 0 || !IsDigit(s[e - 1]) then e
    else
      var b := DigitRunStart(s, e - 1);
      assert s[b..e] == s[b..e - 1] + [s[e - 1]];
      b
  }

  /** The run start is determined by the digits and the non-digit before them. */
  lemma DigitRunStartIs(s: string, e: nat, b: nat)
    requires b <= e <= |s|
    requires AllDigits(s[b..e])
    requires b == 0 || !IsDigit(s[b - 1])
    ensures DigitRunStart(s, e) == b
  {
  }

  function Occurrences(s: string, c: char): nat {
    if |s| == 0 then 0 else (if s[0] == c then 1 else 0) + Occurrences(s[1..], c)
  }

  lemma OccurrencesAppend(a: string, b: string, c: char)
    ensures Occurrences(a + b, c) == Occurrences(a, c) + Occurrences(b, c)
  {
    if |a| > 0 {
      assert (a + b)[0] == a[0];
      assert (a + b)[1..] == a[1..] + b;
      OccurrencesAppend(a[1..], b, c);
    } else {
      assert a + b == b;
    }
  }

  lemma NoOccurrences(s: string, c: char)
    requires forall i | 0 <= i < |s| :: s[i] != c
    ensures Occurrences(s, c) == 0
  {
    if |s| > 0 { NoOccurrences(s[1..], c); }
  }

  /** Guava's `Splitter.on(c).splitToList(s)`: every separator splits,
      and empty pieces (leading, trailing, adjacent) are kept. */
  function Split(s: string, c: char): (parts: seq<string>)
    ensures |parts| > 0
    ensures forall i | 0 <= i < |parts| :: c !in parts[i]
    decreases |s|
  {
    var i := IndexOf(s, c);
    if i == |s| then [s] else [s[..i]] + Split(s[i + 1..], c)
  }

  /** Where the pieces of `a + [x] + b + [y] + c` sit. */
  lemma Cuts(s: string, a: string, x: char, b: string, y: char, c: string)
    requires s == a + [x] + b + [y] + c
    ensures |s| == |a| + |b| + |c| + 2
    ensures s[..|a|] == a && s[|a|] == x
    ensures s[|a| + 1..|a| + 1 + |b|] == b && s[|a| + 1 + |b|] == y
    ensures s[|a| + |b| + 2..] == c
    ensures forall j | 0 <= j < |a| :: s[j] == a[j]
    ensures forall j | 0 <= j < |b| :: s[|a| + 1 + j] == b[j]
  {
    assert s[..|a|] == a;
    assert s[|a| + 1..|a| + 1 + |b|] == b;
    assert s[|a| + |b| + 2..] == c;
  }

  /** A string glued back together around two cut points. */
  lemma Glue(s: string, i: nat, k: nat)
    requires i < k < |s|
    ensures s == s[..i] + [s[i]] + s[i + 1..k] + [s[k]] + s[k + 1..]
  {
    assert s[..i] + [s[i]] == s[..i + 1];
    assert s[..i + 1] + s[i + 1..k] == s[..k];
    assert s[..k] + [s[k]] == s[..k + 1];
    assert s[..k + 1] + s[k + 1..] == s;
  }

  /** A piece free of the separator, then the separator, splits off first. */
  lemma SplitFirst(line: string, rest: string, c: char)
    requires c !in line
    ensures Split(line + [c] + rest, c) == [line] + Split(rest, c)
  {
    var s := line + [c] + rest;
    IndexOfIs(s, c, |line|);
    assert s[..|line|] == line;
    assert s[|line| + 1..] == rest;
  }

  function Join(parts: seq<string>, c: char): string
    requires |parts| > 0
  {
    if |parts| == 1 then parts[0] else parts[0] + [c] + Join(parts[1..], c)
  }

  /** Splitting loses nothing: joining the pieces back gives the input. */
  lemma {:induction false} SplitJoin(s: string, c: char)
    ensures Join(Split(s, c), c) == s
    decreases |s|
  {
    var i := IndexOf(s, c);
    if i < |s| {
      SplitJoin(s[i + 1..], c);
      assert s == s[..i] + [c] + s[i + 1..];
    }
  }

  /** Occurrences counted from the first one on. */
  lemma OccurrencesFrom(s: string, c: char, i: nat)
    requires i < |s| && s[i] == c
    requires forall j | 0 <= j < i :: s[j] != c
    ensures Occurrences(s, c) == 1 + Occurrences(s[i + 1..], c)
  {
    NoOccurrences(s[..i], c);
    assert s == s[..i] + ([c] + s[i + 1..]);
    OccurrencesAppend(s[..i], [c] + s[i + 1..], c);
    assert ([c] + s[i + 1..])[1..] == s[i + 1..];
  }

  /** There is one more piece than there are separators. */
  lemma {:induction false} SplitCount(s: string, c: char)
    ensures |Split(s, c)| == Occurrences(s, c) + 1
    decreases |s|
  {
    var i := IndexOf(s, c);
    if i == |s| {
      NoOccurrences(s, c);
    } else {
      SplitCount(s[i + 1..], c);
      OccurrencesFrom(s, c, i);
    }
  }
}

=== FILE: value_type.dfy ===
/** `Row.Value.Type`: the closed set of value-kind tags, the native classes
    each tag lists, the class-to-tag table built from those lists, and the
    per-tag decoder from a string to a native value. */
module ValueType {
  import opened Base
  import opened Strings
  import opened Keys

  /** The tags, in declaration order. */
  datatype Tag =
    | Integer | Floating | BooleanTag | StringTag | Text | ShortBlob | Blob
    | DateTime | Geo | PostalAddress | PhoneNumber | Email | User | IMHandle
    | Link | Category | Rating | KeyTag | BlobKey | EmbeddedEntity | Null | RawValue

  const ALL_TAGS: seq<Tag> := [
    Integer, Floating, BooleanTag, StringTag, Text, ShortBlob, Blob,
    DateTime, Geo, PostalAddress, PhoneNumber, Email, User, IMHandle,
    Link, Category, Rating, KeyTag, BlobKey, EmbeddedEntity, Null, RawValue]

  lemma AllTagsListed(t: Tag)
    ensures t in ALL_TAGS
  {
  }

  /** The Java constant name, as `Type.valueOf` expects it. */
  function Name(t: Tag): string {
    match t
    case Integer => "INTEGER"
    case Floating => "FLOATING"
    case BooleanTag => "BOOLEAN"
    case StringTag => "STRING"
    case Text => "TEXT"
    case ShortBlob => "SHORT_BLOB"
    case Blob => "BLOB"
    case DateTime => "DATETIME"
    case Geo => "GEO"
    case PostalAddress => "POSTAL_ADDRESS"
    case PhoneNumber => "PHONE_NUMBER"
    case Email => "EMAIL"
    case User => "USER"
    case IMHandle => "IM_HANDLE"
    case Link => "LINK"
    case Category => "CATEGORY"
    case Rating => "RATING"
    case KeyTag => "KEY"
    case BlobKey => "BLOB_KEY"
    case EmbeddedEntity => "EMBEDDED_ENTITY"
    case Null => "NULL"
    case RawValue => "RAW_VALUE"
  }

  function Lookup(tags: seq<Tag>, name: string): (r: Option<Tag>)
    ensures r.Some? ==> r.value in tags && Name(r.value) == name
    ensures r.None? ==> forall t | t in tags :: Name(t) != name
  {
    if |tags| == 0 then None
    else if Name(tags[0]) == name then Some(tags[0])
    else Lookup(tags[1..], name)
  }

  /** `Type.valueOf(name)`: `None` is the `IllegalArgumentException` for a
      name that is no constant. */
  function ValueOf(name: string): (r: Option<Tag>)
    ensures r.Some? ==> Name(r.value) == name
    ensures r.None? ==> forall t: Tag :: Name(t) != name
  {
    var r := Lookup(ALL_TAGS, name);
    if r.None? then
      assert forall t: Tag :: Name(t) != name by {
        forall t: Tag
          ensures Name(t) != name
        {
          AllTagsListed(t);
        }
      }
      r
    else r
  }

  /** There is no `LONG` constant: the 64-bit integer tag is `INTEGER`. */
  lemma NoLongTag(name: string)
    requires name == "LONG"
    ensures ValueOf(name) == None
  {
    forall t: Tag
      ensures Name(t) != name
    {
      NotLong(t, name);
    }
  }

  lemma NotLong(t: Tag, name: string)
    requires name == "LONG"
    ensures Name(t) != name
  {
    var n := Name(t);
    if |n| == 4 && n[0] == 'L' {
      assert t == Link;
      assert n[1] == 'I';
    }
  }

  /** No two constants share a name, so `valueOf` gives back the constant
      whose name it is given. */
  lemma ValueOfName(t: Tag)
    ensures ValueOf(Name(t)) == Some(t)
  {
    var r := ValueOf(Name(t));
    assert r.Some?;
    var u := r.value;
    assert Name(u) == Name(t);
    NameInjective(u, t);
  }

  lemma NameInjective(u: Tag, t: Tag)
    requires Name(u) == Name(t)
    ensures u == t
  {
    var n := Name(t);
    assert |n| > 0;
    match u
    case Integer => assert n == "INTEGER";
    case Floating => assert n == "FLOATING";
    case BooleanTag => assert n == "BOOLEAN";
    case StringTag => assert n == "STRING";
    case Text => assert n == "TEXT";
    case ShortBlob => assert n == "SHORT_BLOB";
    case Blob => assert n == "BLOB";
    case DateTime => assert n == "DATETIME";
    case Geo => assert n == "GEO";
    case PostalAddress => assert n == "POSTAL_ADDRESS";
    case PhoneNumber => assert n == "PHONE_NUMBER";
    case Email => assert n == "EMAIL";
    case User => assert n == "USER";
    case IMHandle => assert n == "IM_HANDLE";
    case Link => assert n == "LINK";
    case Category => assert n == "CATEGORY";
    case Rating => assert n == "RATING";
    case KeyTag => assert n == "KEY";
    case BlobKey => assert n == "BLOB_KEY";
    case EmbeddedEntity => assert n == "EMBEDDED_ENTITY";
    case Null => assert n == "NULL";
    case RawValue => assert n == "RAW_VALUE";
  }

  // ---------------------------------------------------------------------
  // Native classes and the class-to-tag table

  /** The native value classes the tags list, plus one class no tag lists
      (`ArrayList`, the class of a multi-valued property). */
  datatype NativeClass =
    | ShortClass | IntegerClass | LongClass | FloatClass | DoubleClass
    | BooleanClass | StringClass | TextClass | ShortBlobClass | BlobClass
    | DateClass | GeoPtClass | PostalAddressClass | PhoneNumberClass
    | EmailClass | UserClass | IMHandleClass | LinkClass | CategoryClass
    | RatingClass | KeyClass | BlobKeyClass | EmbeddedEntityClass
    | RawValueClass | ArrayListClass

  /** The classes each tag's constructor lists. */
  function Classes(t: Tag): set<NativeClass> {
    match t
    case Integer => {ShortClass, IntegerClass, LongClass}
    case Floating => {FloatClass, DoubleClass}
    case BooleanTag => {BooleanClass}
    case StringTag => {StringClass}
    case Text => {TextClass}
    case ShortBlob => {ShortBlobClass}
    case Blob => {BlobClass}
    case DateTime => {DateClass}
    case Geo => {GeoPtClass}
    case PostalAddress => {PostalAddressClass}
    case PhoneNumber => {PhoneNumberClass}
    case Email => {EmailClass}
    case User => {UserClass}
    case IMHandle => {IMHandleClass}
    case Link => {LinkClass}
    case Category => {CategoryClass}
    case Rating => {RatingClass}
    case KeyTag => {KeyClass}
    case BlobKey => {BlobKeyClass}
    case EmbeddedEntity => {EmbeddedEntityClass}
    case Null => {}
    case RawValue => {RawValueClass}
  }

  /** The tag that lists a class, read off the class side: an independent
      statement of the intended classification. */
  function Owner(c: NativeClass): Option<Tag> {
    match c
    case ShortClass => Some(Integer)
    case IntegerClass => Some(Integer)
    case LongClass => Some(Integer)
    case FloatClass => Some(Floating)
    case DoubleClass => Some(Floating)
    case BooleanClass => Some(BooleanTag)
    case StringClass => Some(StringTag)
    case TextClass => Some(Text)
    case ShortBlobClass => Some(ShortBlob)
    case BlobClass => Some(Blob)
    case DateClass => Some(DateTime)
    case GeoPtClass => Some(Geo)
    case PostalAddressClass => Some(PostalAddress)
    case PhoneNumberClass => Some(PhoneNumber)
    case EmailClass => Some(Email)
    case UserClass => Some(User)
    case IMHandleClass => Some(IMHandle)
    case LinkClass => Some(Link)
    case CategoryClass => Some(Category)
    case RatingClass => Some(Rating)
    case KeyClass => Some(KeyTag)
    case BlobKeyClass => Some(BlobKey)
    case EmbeddedEntityClass => Some(EmbeddedEntity)
    case RawValueClass => Some(RawValue)
    case ArrayListClass => None
  }

  /** The per-tag lists agree with the class-side reading; in particular no
      class is listed under two tags. */
  lemma ClassesAgree(c: NativeClass, t: Tag)
    ensures c in Classes(t) <==> Owner(c) == Some(t)
  {
    OwnerLists(c);
    ListedOwned(c, t);
  }

  /** The class side to the tag side. */
  lemma OwnerLists(c: NativeClass)
    ensures Owner(c).Some? ==> c in Classes(Owner(c).value)
  {
  }

  /** The tag side to the class side. */
  lemma ListedOwned(c: NativeClass, t: Tag)
    ensures c in Classes(t) ==> Owner(c) == Some(t)
  {
  }

  /** The puts one tag makes: each class it lists, mapped to it. */
  function Listing(t: Tag): map<NativeClass, Tag> {
    map c | c in Classes(t) :: t
  }

  /** The static initialiser: for each tag in declaration order, put each of
      its classes into the table (a later put would overwrite an earlier). */
  function BuildTable(tags: seq<Tag>): map<NativeClass, Tag> {
    if |tags| == 0 then map[]
    else BuildTable(tags[..|tags| - 1]) + Listing(tags[|tags| - 1])
  }

  /** One tag's puts: its classes now map to it, the rest are unchanged. */
  lemma TableStep(m: map<NativeClass, Tag>, t: Tag, c: NativeClass)
    ensures c in m + Listing(t) <==> c in m || c in Classes(t)
    ensures c in Classes(t) ==> (m + Listing(t))[c] == t
    ensures c !in Classes(t) && c in m ==> (m + Listing(t))[c] == m[c]
  {
  }

  /** Whatever order the tags are visited in, the table maps exactly the
      classes some visited tag lists, each to the tag that lists it. */
  lemma {:induction false} BuildTableSpec(tags: seq<Tag>, c: NativeClass)
    ensures c in BuildTable(tags) <==> Owner(c).Some? && Owner(c).value in tags
    ensures c in BuildTable(tags) ==> BuildTable(tags)[c] == Owner(c).value
  {
    if |tags| > 0 {
      var t := tags[|tags| - 1];
      var init := tags[..|tags| - 1];
      assert tags == init + [t];
      BuildTableSpec(init, c);
      ClassesAgree(c, t);
      TableStep(BuildTable(init), t, c);
    }
  }

  const FROM_CLASS: map<NativeClass, Tag> := BuildTable(ALL_TAGS)

  /** `Type.fromClass`: `None` is the `null` a missing class yields. */
  function FromClass(c: NativeClass): Option<Tag> {
    if c in FROM_CLASS then Some(FROM_CLASS[c]) else None
  }

  /** `fromClass(c) == t` exactly when `t` lists `c`; `NULL` lists no class
      and so is never the answer; an unlisted class yields `null`. */
  lemma FromClassSpec(c: NativeClass, t: Tag)
    ensures FromClass(c) == Some(t) <==> c in Classes(t)
    ensures FromClass(c) != Some(Null)
    ensures FromClass(c).None? <==> (forall u: Tag :: c !in Classes(u))
  {
    BuildTableSpec(ALL_TAGS, c);
    ClassesAgree(c, t);
    ClassesAgree(c, Null);
    if Owner(c).Some? {
      AllTagsListed(Owner(c).value);
      ClassesAgree(c, Owner(c).value);
    } else {
      forall u: Tag
        ensures c !in Classes(u)
      {
        ClassesAgree(c, u);
      }
    }
  }

  // ---------------------------------------------------------------------
  // Decoding

  /** Library parsers whose syntax this model does not restate: each says
      whether the library call succeeds on the given text. */
  datatype Parsers = Parsers(
    parsesAsDouble: string -> bool,    // Double.parseDouble
    parsesAsFloat: string -> bool,     // Float.parseFloat
    parsesAsDateTime: string -> bool,  // Joda DateTime.parse
    isSchemeName: string -> bool,      // IMHandle.Scheme.valueOf
    isUrl: string -> bool)             // new java.net.URL

  datatype Protocol = Scheme(name: string) | Url(spec: string)

  /** The native value a decoder builds. Values built by library parsers
      whose numeric result is not modelled keep the text they were read from. */
  datatype Decoded =
    | LongValue(n: int)
    | DoubleValue(text: string)
    | BooleanValue(b: bool)
    | StringValue(s: string)
    | TextValue(s: string)
    | DateValue(text: string)
    | GeoValue(latitude: string, longitude: string)
    | PostalAddressValue(s: string)
    | PhoneNumberValue(s: string)
    | EmailValue(s: string)
    | UserValue(fields: seq<string>)
    | IMHandleValue(protocol: Protocol, address: string)
    | LinkValue(s: string)
    | CategoryValue(s: string)
    | RatingValue(n: int)
    | KeyValue(k: Key)
    | BlobKeyValue(s: string)
    | NullValue

  /** The kinds that cannot be built from a string at all. */
  predicate Undecodable(t: Tag) {
    t == ShortBlob || t == Blob || t == EmbeddedEntity || t == RawValue
  }

  /** GEO: split at the first comma, which must exist and be neither the
      first nor the last character; both halves must parse as floats. */
  function DecodeGeo(ps: Parsers, s: string): (r: Result<Decoded, Error>)
    ensures r.Ok? <==>
      && ',' in s
      && 0 < IndexOf(s, ',') < |s| - 1
      && ps.parsesAsFloat(s[..IndexOf(s, ',')])
      && ps.parsesAsFloat(s[IndexOf(s, ',') + 1..])
    ensures r.Ok? ==> r.value.GeoValue? && r.value.latitude + [','] + r.value.longitude == s
    ensures r.Ok? ==> ',' !in r.value.latitude
  {
    var i := IndexOf(s, ',');
    if i == |s| || i == 0 || i == |s| - 1 then Err(IllegalArgument(MalformedValue, s))
    else
      var lat := s[..i];
      var lon := s[i + 1..];
      if !ps.parsesAsFloat(lat) then Err(NumberFormat(lat))
      else if !ps.parsesAsFloat(lon) then Err(NumberFormat(lon))
      else
        assert lat + [','] + lon == s;
        Ok(GeoValue(lat, lon))
  }

  /** USER: split on `:` keeping empty fields; 2, 3 or 4 fields build a
      user (email, auth domain, user id, federated identity). */
  function DecodeUser(s: string): (r: Result<Decoded, Error>)
    ensures r.Ok? ==> r.value.UserValue? && 2 <= |r.value.fields| <= 4
    ensures r.Ok? ==> Join(r.value.fields, ':') == s
    ensures r.Ok? ==> forall i | 0 <= i < |r.value.fields| :: ':' !in r.value.fields[i]
  {
    var fields := Split(s, ':');
    if 2 <= |fields| <= 4 then
      SplitJoin(s, ':');
      Ok(UserValue(fields))
    else Err(IllegalArgument(MalformedValue, s))
  }

  /** A user decodes exactly when the input has one to three colons. */
  lemma UserColons(s: string)
    ensures DecodeUser(s).Ok? <==> 1 <= Occurrences(s, ':') <= 3
  {
    SplitCount(s, ':');
  }

  /** IM_HANDLE: exactly two space-separated fields; the first is tried as
      a scheme name, then as a URL. */
  function DecodeIMHandle(ps: Parsers, s: string): (r: Result<Decoded, Error>)
    ensures r.Ok? <==>
      |Split(s, ' ')| == 2 && (ps.isSchemeName(Split(s, ' ')[0]) || ps.isUrl(Split(s, ' ')[0]))
    ensures r.Ok? ==> r.value.IMHandleValue? && ' ' !in r.value.address
    ensures r.Ok? && ps.isSchemeName(Split(s, ' ')[0]) ==> r.value.protocol == Scheme(Split(s, ' ')[0])
    ensures r.Ok? && !ps.isSchemeName(Split(s, ' ')[0]) ==> r.value.protocol == Url(Split(s, ' ')[0])
    ensures r.Ok? ==> ProtocolText(r.value.protocol) + [' '] + r.value.address == s
  {
    var fields := Split(s, ' ');
    if |fields| != 2 then Err(IllegalArgument(MalformedValue, s))
    else
      SplitJoin(s, ' ');
      assert fields[1..] == [fields[1]];
      assert fields[0] + [' '] + fields[1] == s;
      if ps.isSchemeName(fields[0]) then Ok(IMHandleValue(Scheme(fields[0]), fields[1]))
    else if ps.isUrl(fields[0]) then Ok(IMHandleValue(Url(fields[0]), fields[1]))
    else Err(IllegalArgument(MalformedValue, s))
  }

  /** The text a protocol was read from. */
  function ProtocolText(p: Protocol): string {
    match p
    case Scheme(name) => name
    case Url(spec) => spec
  }

  /** An IM handle needs exactly one space. */
  lemma IMHandleSpaces(ps: Parsers, s: string)
    requires DecodeIMHandle(ps, s).Ok?
    ensures Occurrences(s, ' ') == 1
  {
    SplitCount(s, ' ');
  }

  /** INTEGER (`Long.parseLong`) and RATING (`Integer.parseInt`, the
      rating's own range check left to the library). */
  function DecodeLong(s: string): (r: Result<Decoded, Error>)
    ensures r.Ok? <==> ParseSigned(s, INT64_MIN, INT64_MAX).Some?
    ensures r.Ok? ==> r.value.LongValue? && INT64_MIN <= r.value.n <= INT64_MAX
    ensures r.Ok? ==> SpellsSigned(s, r.value.n)
  {
    match ParseSigned(s, INT64_MIN, INT64_MAX)
    case Some(n) => Ok(LongValue(n))
    case None => Err(NumberFormat(s))
  }

  function DecodeRating(s: string): (r: Result<Decoded, Error>)
    ensures r.Ok? <==> ParseSigned(s, INT32_MIN, INT32_MAX).Some?
    ensures r.Ok? ==> r.value.RatingValue? && INT32_MIN <= r.value.n <= INT32_MAX
    ensures r.Ok? ==> SpellsSigned(s, r.value.n)
  {
    match ParseSigned(s, INT32_MIN, INT32_MAX)
    case Some(n) => Ok(RatingValue(n))
    case None => Err(NumberFormat(s))
  }

  /** KEY: the slash-separated numeric-id grammar. */
  function DecodeKeyValue(s: string): (r: Result<Decoded, Error>)
    ensures r.Ok? <==> DecodeKey(s).Ok?
    ensures r.Ok? ==> r == Ok(KeyValue(DecodeKey(s).value))
    ensures r.Err? ==> r == Err(DecodeKey(s).error)
  {
    match DecodeKey(s)
    case Ok(k) => Ok(KeyValue(k))
    case Err(e) => Err(e)
  }

  /** NULL: only the empty string, which decodes to `null`. */
  function DecodeNull(s: string): (r: Result<Decoded, Error>)
    ensures r.Ok? <==> s == ""
    ensures r.Ok? ==> r.value == NullValue
  {
    if s == "" then Ok(NullValue) else Err(IllegalArgument(MalformedValue, s))
  }

  /** `type.fromString(str)`, dispatched on the tag. */
  function Decode(ps: Parsers, t: Tag, s: string): (r: Result<Decoded, Error>)
    ensures Undecodable(t) <==> r == Err(UnsupportedOperation(s)) && t != KeyTag
    ensures t == StringTag ==> r == Ok(StringValue(s))
    ensures t == BooleanTag ==> r == Ok(BooleanValue(EqualsIgnoreCase(s, "true")))
    ensures t == BlobKey ==> r == Ok(BlobKeyValue(s))
  {
    match t
    case Integer => DecodeLong(s)
    case Floating => if ps.parsesAsDouble(s) then Ok(DoubleValue(s)) else Err(NumberFormat(s))
    case BooleanTag => Ok(BooleanValue(EqualsIgnoreCase(s, "true")))
    case StringTag => Ok(StringValue(s))
    case Text => Ok(TextValue(s))
    case ShortBlob => Err(UnsupportedOperation(s))
    case Blob => Err(UnsupportedOperation(s))
    case DateTime => if ps.parsesAsDateTime(s) then Ok(DateValue(s)) else Err(IllegalArgument(MalformedValue, s))
    case Geo => DecodeGeo(ps, s)
    case PostalAddress => Ok(PostalAddressValue(s))
    case PhoneNumber => Ok(PhoneNumberValue(s))
    case Email => Ok(EmailValue(s))
    case User => DecodeUser(s)
    case IMHandle => DecodeIMHandle(ps, s)
    case Link => Ok(LinkValue(s))
    case Category => Ok(CategoryValue(s))
    case Rating => DecodeRating(s)
    case KeyTag => DecodeKeyValue(s)
    case BlobKey => Ok(BlobKeyValue(s))
    case EmbeddedEntity => Err(UnsupportedOperation(s))
    case Null => DecodeNull(s)
    case RawValue => Err(UnsupportedOperation(s))
  }

  /** The dispatch for the tags a filter can name besides String and
      Boolean. */
  lemma DecodeFilterTag(ps: Parsers, t: Tag, s: string)
    requires t == Email || t == Null || t == KeyTag
    ensures t == Email ==> Decode(ps, t, s) == Ok(EmailValue(s))
    ensures t == Null ==> (Decode(ps, t, s).Ok? <==> s == "")
    ensures t == Null && s == "" ==> Decode(ps, t, s) == Ok(NullValue)
    ensures t == KeyTag ==> Decode(ps, t, s) == DecodeKeyValue(s)
  {
  }

  /** Decoding an integer tag reads back every `long` rendered in decimal. */
  lemma IntegerRoundTrip(ps: Parsers, n: int)
    requires INT64_MIN <= n <= INT64_MAX
    ensures Decode(ps, Integer, IntToString(n)) == Ok(LongValue(n))
  {
    ParseSignedRoundTrip(n, INT64_MIN, INT64_MAX);
  }

  /** Decoding a key tag reads back every rendered numeric chain. */
  lemma KeyTagRoundTrip(ps: Parsers, k: Key)
    requires ValidChain(k)
    ensures Decode(ps, KeyTag, Render(k)) == Ok(KeyValue(k))
  {
    KeyRoundTrip(k);
  }
}
